=== FILE: README.md ===
# Jablotron 6x protocol engine and MQTT bridge, in Dafny

This project models two things:

- The protocol engine of `py-jablotron6x`, which talks to a Jablotron 6x alarm panel over a JA-80T serial cable.
- The decision logic of `jablotron2mqtt`, which bridges that engine to an MQTT broker for a Home Assistant alarm panel.

Everything is modelled with immutable datatypes and pure functions. A frame is a `seq<byte>`.

The engine covers these parts:

- **Frame assembler** (`Framing`). Bytes accumulate in a read buffer. The terminator `0xFF` closes a frame made of the whole buffer, terminator included.
- **Callback chain** (`Chain`, `Jablotron`).
  - Each registration is a handler plus a prefix mask.
  - Masks are compared `izip`-style, truncated to the shorter of frame and mask. `None` is a wildcard.
  - Dispatch runs the matching handlers in registration order. It stops at the first one that consumes the frame or raises.
- **Handlers.** A closed datatype (`Jablotron.Handler`) with six cases:
  - the key-press decoder;
  - the status decoder (`StatusDiffing`), which diffs mode, LED and display bytes against its memory and raises an event only for a byte that changed;
  - `print_buffer`, `consume_event` and `remove_duplicities`;
  - the bridge's raw-frame publisher.
- **Callback properties.** `on_key_press` and the other three are `Option`al subscribers. Events sent to an unset property are dropped.
- **`send_keys`** (`Keys`). Encodes keypad characters as key codes. On the first invalid character it raises `ValueError`, after the codes of the valid prefix were already written.

The bridge (`MqttBridge`) covers these parts:

- the first-match mode-translation rule list;
- topic construction and routing of incoming MQTT messages;
- what each engine callback publishes, including the fan-out of one LED delta into one message per LED;
- the error path for an invalid key command;
- the order in which `_setup_jablotron` wires its handlers behind the engine's built-in ones.

Three functions have no contract of their own. They serve as reference definitions in the contracts of the table below:

- `Jablotron.DispatchFrames` dispatches a list of frames one after the other. Each frame is the buffer during its own dispatch, the buffer is emptied after it, and the list stops at the first handler that raises. `Jablotron.RunDispatchesAssembledFrames` equates the read loop with it.
- `MqttBridge.PublishAll` is what the bridge publishes for a sequence of engine outputs: each output goes through `MqttBridge.React`, in order.
- `MqttBridge.LedMessage` is the retained message for one table LED: `1` or `0` on `<topic>/leds/<name>`. `MqttBridge.LedFanOut` states the LED messages of a status frame in terms of it.

## Model

| member | source | states |
|---|---|---|
| Common.Hex2RoundTrip | jablotron/jablotron6x.py:409 | `"%02x"` formatting of a byte loses nothing: its two digits parse back as the byte |
| Common.HexLineRoundTrip | jablotron/jablotron6x.py:407-410 | a raw-frame line (hex pairs joined by spaces) parses back into exactly the frame |
| Common.HexLine | jablotron/jablotron6x.py:409 | a raw-frame line has two hex digits per byte and one space between neighbours, so `3n-1` characters for `n` bytes; `Common.HexLineRoundTrip` reads it back |
| Tables.KeyMapsAreInverse | jablotron/jablotron6x.py:13-27 | `KEY_MAP_INVERSED` is the exact inverse of `KEY_MAP`, and `KEY_MAP` is injective |
| Tables.KeyCodesAreTheKeyMapValues | jablotron/jablotron6x.py:124-127 | the codes the decoder is registered for are exactly the key codes, each once |
| Tables.ModeNamesDistinct | jablotron/jablotron6x.py:56-67 | different mode bytes in the table have different names |
| Tables.ModeNamesAreNotFallbacks | jablotron/jablotron6x.py:56-67 | no table mode name can be mistaken for a `Mode xx` fallback label |
| Tables.ModeLabel | jablotron/jablotron6x.py:306-310 | the mode text is the table name for a listed byte; otherwise it is the seven characters `Mode xx`, whose last two parse back to the byte |
| Tables.ModeLabelInjective | jablotron/jablotron6x.py:304-310 | the reported mode text, table name or fallback, determines the mode byte |
| Tables.DisplayLabel | jablotron/jablotron6x.py:333-340 | the display text is two characters: the table text, or for an unknown code two hex digits that parse back to the code |
| Tables.DisplayLabelAmbiguous | jablotron/jablotron6x.py:30-42 | display texts do not determine the code: table code 0x0C and unknown code 0x12 both show `12` |
| Framing.Feed | jablotron/jablotron6x.py:241-246 | a byte other than 0xFF only extends the buffer; 0xFF hands over the buffer plus itself as a frame and leaves the buffer empty |
| Framing.FeedAll | jablotron/jablotron6x.py:233-246 | a block of bytes yields exactly as many frames as it holds 0xFF bytes |
| Framing.FeedKeepsPending | jablotron/jablotron6x.py:241-246 | a buffer without a terminator stays so after a byte; the frame a terminator completes ends in its only 0xFF |
| Framing.FeedAllPreservesBytes | jablotron/jablotron6x.py:233-246 | the dispatched frames followed by the residual buffer are exactly the old buffer followed by the bytes read |
| Framing.FeedAllFramesWellFormed | jablotron/jablotron6x.py:241-246 | every dispatched frame ends in 0xFF and holds no earlier 0xFF; the residual holds none |
| Framing.FeedAllChunked | jablotron/jablotron6x.py:233-246 | feeding two blocks one after the other gives the same frames and residual as feeding them as one block |
| Framing.LoneTerminatorIsFrame | jablotron/jablotron6x.py:242-245 | a lone 0xFF on an empty buffer is dispatched as a one-byte frame |
| Chain.Matches | jablotron/jablotron6x.py:213-219 | the pairwise walk over frame and mask, stopping at the first defined mask byte the frame does not repeat; `Chain.MatchesIffAgrees` states what it decides |
| Chain.MatchesIffAgrees | jablotron/jablotron6x.py:213-219 | the izip walk matches iff every position below both lengths is a wildcard or equals the frame byte |
| Chain.MaskTruncation | jablotron/jablotron6x.py:214 | an empty mask matches every frame; a mask longer than the frame is compared only on the frame's length |
| Chain.WildcardsMatchAll | jablotron/jablotron6x.py:215-216 | a mask made only of `None` matches every frame |
| Chain.ExactlyMatches | jablotron/jablotron6x.py:127 | a one-byte mask matches exactly the frames that start with that byte, or are empty |
| Chain.Register | jablotron/jablotron6x.py:204-205 | registration appends: earlier registrations keep their positions and the new one is last |
| Chain.MatchingFromMeaning | jablotron/jablotron6x.py:212-220 | the reference list holds exactly the matching registrations, strictly ascending |
| Chain.ChainOrderMeaning | jablotron/jablotron6x.py:212-223 | a dispatch trace visits only matching registrations, in strictly increasing order, and skips none before the one that stopped it or the chain's end |
| Keys.EncodeKeys | jablotron/jablotron6x.py:178-179 | one code per key, in order, each `KEY_MAP` of its character |
| Keys.DecodeKeys | jablotron/jablotron6x.py:262-273 | the decoded keys re-encode to exactly the frame's key-code bytes in frame order; unknown bytes are skipped |
| Keys.KeyEvents | jablotron/jablotron6x.py:263-266 | one key-press event per decoded key, in order |
| Keys.ValidPrefixLength | jablotron/jablotron6x.py:178-181 | all characters before the returned position are keypad keys, and the one at it is not |
| Keys.SendKeys | jablotron/jablotron6x.py:170-183 | raises iff some character is not a key, with message `Invalid Keys: <keys>`; the valid prefix's codes are written either way |
| Keys.DecodeEncodedKeys | jablotron/jablotron6x.py:262-273 | decoding encoded valid keys gives back the keys |
| Keys.DecodeSentKeys | jablotron/jablotron6x.py:170-183 | what `send_keys` wrote decodes to exactly its valid prefix |
| Keys.SendKeysExample | jablotron/jablotron6x.py:178-179 | `F06060` is written as `8F 80 86 80 86 80` without error |
| Keys.InvalidKeyX | jablotron/jablotron6x.py:181-182 | `X` writes nothing and raises `Invalid Keys: X` |
| Keys.InvalidKeyAfterPrefix | jablotron/jablotron6x.py:177-182 | `12X3` writes the codes of `1` and `2`, then raises |
| Keys.KeyFrameExample | jablotron/jablotron6x.py:262-273 | a `87 FF` frame yields one key press, `7`; the terminator is not a key |
| StatusDiffing.LedNamesDistinct | jablotron/jablotron6x.py:45-53 | the named LEDs have distinct names |
| StatusDiffing.LedDelta | jablotron/jablotron6x.py:318-324 | the LED delta has at most one entry per named LED, and no name occurs twice; `StatusDiffing.LedDeltaMeaning` states which LEDs it holds |
| StatusDiffing.LedDeltaFromMembers | jablotron/jablotron6x.py:320-324 | from any table position on, the entries are exactly the LEDs from there whose bit flipped, each with its new state |
| StatusDiffing.LedDeltaFromNames | jablotron/jablotron6x.py:320-324 | from any table position on, each entry names a table LED, and no name occurs twice |
| StatusDiffing.LedDeltaMeaning | jablotron/jablotron6x.py:318-324 | the LED delta holds exactly the named LEDs whose masked bit differs, each mapped to whether its new bit is set, every name once |
| StatusDiffing.StatusUpdate | jablotron/jablotron6x.py:303-349 | each of mode, LEDs and display is stored and its event raised iff its byte differs from memory, with the table label or fallback; a frame too short raises at the first missing byte, after the earlier checks took effect |
| StatusDiffing.StatusIdempotent | jablotron/jablotron6x.py:304-333 | the same status frame a second time raises nothing and leaves the memory unchanged |
| StatusDiffing.NoFlipNoDelta | jablotron/jablotron6x.py:320-324 | no flipped named bit means an empty delta |
| StatusDiffing.SubMaskAgrees | jablotron/jablotron6x.py:321-322 | bytes equal on the named bits 0x77 are equal under each named LED's mask |
| StatusDiffing.UnnamedBitsGiveEmptyDelta | jablotron/jablotron6x.py:318-324 | a change confined to the unnamed bits 0x08 and 0x80 gives an empty delta |
| StatusDiffing.UnnamedBitStillRaisesLedEvent | jablotron/jablotron6x.py:318-331 | flipping only bit 0x08 still raises an LED event, with an empty delta |
| StatusDiffing.ArmedFrameExample | jablotron/jablotron6x.py:303-349 | `E0 41 11 59 .. FF` on fresh memory raises `armed`, then power and lock on, then the blank display `"  "`, in that order |
| Jablotron.Deliver | jablotron/jablotron6x.py:264-269 | at most one subscriber call per event |
| Jablotron.DeliverOne | jablotron/jablotron6x.py:312-316 | one event reaches the subscriber of its own property exactly when that property is set, whatever the other properties hold |
| Jablotron.DeliverSplit | jablotron/jablotron6x.py:303-349 | events are delivered independently: the calls for a sequence of events are the calls for each part, in order |
| Jablotron.DeliverMeaning | jablotron/jablotron6x.py:264-269 | every call goes to the subscriber of its event's property; with all properties set every event is delivered once, in order; with none set nothing is |
| Jablotron.Subscribe | jablotron/jablotron6x.py:288-298 | setting one callback property changes that property only |
| Jablotron.RegisterCallback | jablotron/jablotron6x.py:185-206 | registration appends to the chain and changes nothing else in the engine |
| Jablotron.Checksum | jablotron/jablotron6x.py:418 | the trailer byte is Python's `buf[len(buf)-2]`, where a negative index counts from the end |
| Jablotron.Deduplicate | jablotron/jablotron6x.py:416-422 | consumes iff the second-to-last byte (for a one-byte frame, its only byte) equals the remembered one; otherwise remembers it; an empty frame raises |
| Jablotron.RepeatIsSuppressed | jablotron/jablotron6x.py:416-422 | the second of two frames with the same trailer byte is consumed |
| Jablotron.FirstZeroTrailerSuppressed | jablotron/jablotron6x.py:424 | the remembered value starts at 0, so a first frame with trailer 0x00 is consumed |
| Jablotron.Invoke | jablotron/jablotron6x.py:407-424 | each handler does what its source does: the key decoder delivers the decoded key presses, the status decoder stores the new memory and delivers its events and raises exactly on short frames, `print_buffer` and the raw publisher emit the hex line, `consume_event` consumes silently, `remove_duplicities` gives `Jablotron.Deduplicate`'s verdict and memory; nothing else in the engine changes |
| Jablotron.Walk | jablotron/jablotron6x.py:212-223 | a dispatch changes neither the chain, nor the buffer, nor the callback properties |
| Jablotron.WalkOrder | jablotron/jablotron6x.py:212-223 | a dispatch's trace has the dispatch order of `Chain.ChainOrder` |
| Jablotron.WalkStops | jablotron/jablotron6x.py:220-223 | a dispatch ends early only at a handler that may consume or raise on that frame |
| Jablotron.WalkVerdicts | jablotron/jablotron6x.py:220-223 | every step records the verdict its handler returns: `consume_event` always consumes, a handler that can neither consume nor raise lets the frame go on, the status decoder raises exactly on a frame without a display byte, the suppressor exactly on an empty frame; on a non-empty frame the suppressor consumes exactly when the trailer repeats the one remembered before the dispatch, or when an earlier suppressor of the same dispatch already let the frame through |
| Jablotron.WalkSuppressorVerdicts | jablotron/jablotron6x.py:416-424 | each suppressor step of a dispatch consumes a non-empty frame exactly when its trailer repeats the remembered one, the memory being updated by every earlier suppressor step of the same dispatch |
| Jablotron.ConsumeEventStopsWalk | jablotron/jablotron6x.py:220-223 | a matching `consume_event` registration is never passed over: the dispatch stops there or at an earlier registration |
| Jablotron.WalkKeepsState | jablotron/jablotron6x.py:209-223 | the status memory changes only if the status decoder ran, the remembered trailer only if the suppressor ran |
| Jablotron.WalkSkips | jablotron/jablotron6x.py:213-220 | registrations that do not match are passed over without effect |
| Jablotron.Dispatch | jablotron/jablotron6x.py:209-223 | dispatching a frame leaves chain, buffer and callback properties unchanged |
| Jablotron.Receive | jablotron/jablotron6x.py:241-246 | a non-terminator byte only extends the buffer; a terminator dispatches the buffer plus 0xFF, and the outputs, status memory, remembered trailer and whether a handler raised are those of that dispatch; the buffer is then emptied unless a handler raised, which leaves the frame in it |
| Jablotron.RunWith | jablotron/jablotron6x.py:233-246 | the read loop stops early only when a handler raises, and then leaves at least the bytes after the raising one unread |
| Jablotron.RunWithLeavesRest | jablotron/jablotron6x.py:233-246 | the bytes left unread are a suffix of the input, nothing skipped or reordered; after a raise, the bytes before the last one read ran without a raise and that last byte raised on the engine they left |
| Jablotron.RunDispatchesAssembledFrames | jablotron/jablotron6x.py:233-246 | the read loop dispatches exactly the frames the assembler delimits, one after the other with the buffer emptied between them: its outputs, final status and trailer memory, and whether it raised equal those of dispatching the assembled frames in turn; unless a handler raised, it logs exactly those frames and keeps the residual as its buffer |
| Jablotron.Run | jablotron/jablotron6x.py:233-246 | the engine's read loop stops early only when a handler raises, leaving the bytes after it unread |
| Jablotron.RunWithChunked | jablotron/jablotron6x.py:233-246 | reading two blocks one after the other does what reading them as one block does, for any per-byte step |
| Jablotron.RunChunked | jablotron/jablotron6x.py:233-246 | reading two blocks one after the other does what reading them as one block does: same outputs, frames and final engine |
| Jablotron.Loop | jablotron/jablotron6x.py:233-240 | a closed port or an empty read stops the loop with the engine, the partial buffer included, untouched |
| Jablotron.InternalChain | jablotron/jablotron6x.py:124-129 | the key decoder once per key code with that code as a one-byte mask, then the status decoder on 0xE0 |
| Jablotron.KeyDecoderRegisteredOncePerCode | jablotron/jablotron6x.py:124-127 | every key code has a key-decoder registration, and no two key-decoder registrations share a mask |
| Jablotron.NewEngine | jablotron/jablotron6x.py:98-129 | a new engine has an empty buffer, LEDs 0, mode and display unset, no subscribers and the internal registrations |
| Jablotron.KeyFrameMatchesOnlyItsCode | jablotron/jablotron6x.py:212-219 | on the internal chain `87 FF` matches only the registration for code 0x87 |
| Jablotron.KeyDecoderStep | jablotron/jablotron6x.py:262-273 | the key decoder turns `87 FF` into a key press `7` and does not consume |
| Jablotron.KeyFrameDispatch | jablotron/jablotron6x.py:209-223 | dispatching `87 FF` runs one handler and delivers one key press `7` |
| Jablotron.KeyFrameScenario | jablotron/jablotron6x.py:241-246 | reading `87 FF` with a key subscriber set notifies it of exactly one key press, `7` |
| Jablotron.SuppressorBeforeDecoderScenario | jablotron/jablotron6x.py:416-422 | with the suppressor placed before the status decoder, a repeated status frame is consumed before reaching the decoder |
| MqttBridge.FirstMatch | jablotron2mqtt/ja2mqtt.py:135-137 | the first rule, in list order, whose test holds; none only if no test holds |
| MqttBridge.TranslateMode | jablotron2mqtt/ja2mqtt.py:13-19 | the result is the label of a rule whose test holds and no earlier rule's test holds |
| MqttBridge.ArmingIsNotArmed | jablotron2mqtt/ja2mqtt.py:15-16 | a label starting with `arming` does not start with `armed` |
| MqttBridge.TranslateModeCases | jablotron2mqtt/ja2mqtt.py:13-19 | each panel mode, as an iff over the label: `armedA` is home; other `armed…` is away; `arming…` is pending; else `alarm` inside is triggered; the rest is disarmed |
| MqttBridge.NoLNoAlarm | jablotron2mqtt/ja2mqtt.py:17 | a label without an `l` never contains `alarm` |
| MqttBridge.PlainLabelIsDisarmed | jablotron2mqtt/ja2mqtt.py:18 | a label starting with neither `armed` nor `arming` and with no `l` is disarmed |
| MqttBridge.FallbackModesAreDisarmed | jablotron2mqtt/ja2mqtt.py:18 | every fallback label `Mode xx` translates to disarmed |
| MqttBridge.TamperIsTriggered | jablotron2mqtt/ja2mqtt.py:17 | `tamper alarm` translates to triggered |
| MqttBridge.ArmedHome | jablotron2mqtt/ja2mqtt.py:14 | `armedA` is home, although it also starts with `armed` |
| MqttBridge.ArmedAway | jablotron2mqtt/ja2mqtt.py:15 | `armed` and `armedB` are away |
| MqttBridge.Arming | jablotron2mqtt/ja2mqtt.py:16 | `arming`, `armingA` and `armingB` are pending |
| MqttBridge.Disarmed | jablotron2mqtt/ja2mqtt.py:18 | `service mode`, `user mode` and `disarmed` are disarmed |
| MqttBridge.EngineModesTranslate | jablotron2mqtt/ja2mqtt.py:133-139 | the panel mode for every mode byte the engine can report, table or fallback |
| MqttBridge.Publish | jablotron2mqtt/ja2mqtt.py:84-89 | one message under `<topic>/<sub>` with the given payload and retain flag when connected, nothing otherwise |
| MqttBridge.MqttTopics | jablotron2mqtt/ja2mqtt.py:29-37 | subscriptions are exactly `<topic>/<key>` for each handler key |
| MqttBridge.Route | jablotron2mqtt/ja2mqtt.py:107-111 | a topic is routed iff it is subscribed, and dropping `len(topic)+1` characters gives its handler key |
| MqttBridge.RouteRecoversKey | jablotron2mqtt/ja2mqtt.py:111 | routing the topic built from a handler key gives back that key |
| MqttBridge.OnMqttKeyPress | jablotron2mqtt/ja2mqtt.py:116-121 | the keys are sent; an invalid key publishes `Error: invalid key` on `key` instead of raising, after the valid prefix was written |
| MqttBridge.OnMqttMessage | jablotron2mqtt/ja2mqtt.py:105-114 | an unsubscribed topic does nothing; the key topic runs the key-press handler |
| MqttBridge.InvalidKeyPublishesError | jablotron2mqtt/ja2mqtt.py:116-121 | `X` on the key topic publishes the error on `<topic>/key` and writes nothing |
| MqttBridge.OnAlarmKey | jablotron2mqtt/ja2mqtt.py:129-131 | a key press is published on `<topic>/key`, not retained |
| MqttBridge.OnAlarmMode | jablotron2mqtt/ja2mqtt.py:133-139 | the translated panel mode is published on `<topic>/mode`, retained |
| MqttBridge.OnAlarmDisplay | jablotron2mqtt/ja2mqtt.py:141-143 | the display text is published on `<topic>/display`, retained |
| MqttBridge.OnAlarmLed | jablotron2mqtt/ja2mqtt.py:145-148 | one retained message per delta entry, in order, on `<topic>/leds/<name>` with 1 or 0; nothing for an empty delta |
| MqttBridge.LedFanOut | jablotron2mqtt/ja2mqtt.py:145-148 | the LED messages of a status frame are exactly one per named LED whose bit flipped, with its new state |
| MqttBridge.OnAlarmMessage | jablotron2mqtt/ja2mqtt.py:123-127 | the frame is published on `<topic>/raw` as a hex line that parses back to the frame |
| MqttBridge.React | jablotron2mqtt/ja2mqtt.py:77-80 | each notification goes to the handler installed for its property: key presses to `on_alarm_key`, modes to `on_alarm_mode`, LED deltas to `on_alarm_led`, display texts to `on_alarm_display`; the raw line is published unretained on `raw`; printed lines and a disconnected bridge publish nothing |
| MqttBridge.RawOutputIsAlarmMessage | jablotron2mqtt/ja2mqtt.py:123-127 | the engine's raw-frame output publishes what `on_alarm_message` publishes |
| MqttBridge.SetupJablotron | jablotron2mqtt/ja2mqtt.py:72-80 | the chain is the engine's built-in registrations, then the suppressor on 0xE0, then the raw publisher on every frame; the four properties hold the bridge's four `on_alarm_*` handlers |
| MqttBridge.WiredLayout | jablotron2mqtt/ja2mqtt.py:72-75 | the wired chain: twelve key decoders, the status decoder, the suppressor, the raw publisher |
| MqttBridge.OnlyStatusHandlersStop | jablotron2mqtt/ja2mqtt.py:74-75 | on the wired chain only the status decoder and the suppressor can stop a dispatch |
| MqttBridge.OtherFramesReachRawPublisher | jablotron2mqtt/ja2mqtt.py:74-75 | a frame not starting with 0xE0 always reaches the raw publisher and never the status decoder or suppressor |
| MqttBridge.StatusDecoderSeesEveryStatusFrame | jablotron2mqtt/ja2mqtt.py:74-75 | the status decoder runs on every status frame: the suppressor cannot hide one from it |
| MqttBridge.KeyDecodersSkipStatusFrames | jablotron/jablotron6x.py:124-129 | no key decoder matches a status frame |
| MqttBridge.RawStep | jablotron2mqtt/ja2mqtt.py:123-127 | the raw publisher runs on every frame that reaches it, outputs the frame's hex line, never consumes and changes nothing |
| MqttBridge.SuppressorStep | jablotron2mqtt/ja2mqtt.py:74 | on a status frame the suppressor remembers its trailer, and the raw publisher runs after it only if it let the frame through |
| MqttBridge.SuppressorStepOutput | jablotron2mqtt/ja2mqtt.py:74-75 | the suppressor outputs nothing itself, and the raw line follows only if it let the frame through |
| MqttBridge.StatusStep | jablotron/jablotron6x.py:303-349 | on a complete status frame the status decoder updates the memory and passes the frame on |
| MqttBridge.StatusStepOutput | jablotron/jablotron6x.py:303-349 | the status decoder's deliveries come before whatever the rest of the walk outputs |
| MqttBridge.StatusFrameDispatch | jablotron2mqtt/ja2mqtt.py:74-75 | a complete status frame runs the status decoder, then the suppressor, then the raw publisher only if the suppressor let it through |
| MqttBridge.StatusFrameOutputs | jablotron2mqtt/ja2mqtt.py:74-75 | a complete status frame outputs the status decoder's deliveries, then the raw line unless the suppressor consumed the frame |
| MqttBridge.PublishEvent | jablotron2mqtt/ja2mqtt.py:77-80 | one event through the bridge's subscribers publishes exactly what its `on_alarm_*` handler publishes |
| MqttBridge.PublishStatusEvents | jablotron2mqtt/ja2mqtt.py:129-148 | a status frame's events publish the mode, LED and display handlers' messages, in that order, each only if its check raised an event |
| MqttBridge.PublishRawUnlessRepeat | jablotron2mqtt/ja2mqtt.py:74-75 | the raw line is published as `on_alarm_message` does unless the frame repeats the remembered trailer, and then nothing is |
| MqttBridge.StatusFramePublishes | jablotron2mqtt/ja2mqtt.py:72-80 | end to end, a complete status frame on the wired bridge publishes the translated mode if the mode byte changed, one message per flipped LED if the LED byte changed, the display text if the display byte changed, in that order, then the raw line unless the trailer repeats |

## Notes on the source

- **LED byte 0x11.** `LED_MAP` (jablotron/jablotron6x.py:45-53) reads the LED byte 0x11 of `E0 41 11 59 .. FF` as 0x01 | 0x10, which is power and lock (`StatusDiffing.ArmedFrameExample`).
- **Short status frames.** Frames too short for `buf[1]`, `buf[2]` or `buf[3]` are modelled as the source runs them.
  - The checks before the missing byte take effect.
  - The handler then raises `IndexError`.
  - The exception leaves `loop` before the buffer is reset, so the frame stays buffered and the remaining bytes stay unread.
- **Duplicate suppressor.** `remove_duplicities` reads `buf[len(buf)-2]`.
  - For a one-byte frame that index is -1, which Python reads as the only byte.
  - An empty frame raises. No frame produced by the assembler is empty.
  - Its memory starts at 0, so the first status frame whose trailer byte is 0x00 is swallowed (`Jablotron.FirstZeroTrailerSuppressed`).

## Left out

- The serial transport is left out because it is I/O. This covers `serial.Serial` configuration, `connect`/`disconnect`/`flush` and the `chr` writes in `send`. Bytes written are modelled as a byte sequence (`Keys.SendResult.written`). Bytes read are modelled as a `Jablotron.Port` holding the bytes the port has ready.
- The `sleep(0.1)` pacing in `send_keys`, and the two `loop_forever` loops with their float reconnect timer, are left out because they are timing and non-terminating loops.
- The paho-mqtt client is left out because it is an external library. This covers its setup, `will_set`, `on_mqtt_connect` and `on_mqtt_disconnect` (the subscribe calls, the `online` and `ip` publishes), the socket address lookup and `__exit__`. The connection is the `connected` flag of `MqttBridge.Bridge`.
- `publish` returns whether the client accepted the message. That result is not modelled, because it comes from the client library.
- `logging` calls and the `print` of unknown topics have no effect on state, so they are left out. `print_buffer`'s line is kept as a `Printed` output, which the bridge ignores.
- Callbacks are first-class functions in the source. Here they are a closed set of handlers (`Jablotron.Handler`) and of named subscribers. The source's `TypeError` catch for an unset callback becomes an `Option` that drops the event. A `TypeError` raised inside a subscriber is not modelled, because subscribers have no body here.
- Python 2 dict ordering is unspecified, so a fixed order is used:
  - the LED delta (and so the LED publishes) follows ascending bit order;
  - the key decoder is registered in ascending code order. Only one key registration can match a frame, so this order has no observable effect.
- `remove_duplicities.last` is module-global in the source, shared by every engine. Here it is a field of the engine, starting at 0.
- MQTT payloads are strings, not bytes. `int(val)` for LEDs is a `Number` payload.
- `main.py` (argument parsing and process wiring) and `setup.py` (packaging) are left out because they are not part of the engine or the bridge logic.
- Jablotron.Deliver: its own contract only bounds the output length. What delivery means is stated in `Jablotron.DeliverOne`, `Jablotron.DeliverSplit` and `Jablotron.DeliverMeaning`.
- Jablotron.Run: states only when bytes are left unread. The frame, output and buffer behaviour is in `Jablotron.RunDispatchesAssembledFrames` and `Jablotron.RunChunked`.
- Jablotron.RunWith: bounds the unread bytes only. That they are exactly the bytes after the one that raised is stated in `Jablotron.RunWithLeavesRest`.
- Chain.Matches: has no contract of its own. What it decides is stated in `Chain.MatchesIffAgrees`.
- Jablotron.Loop: the port's open state is fixed for one call. A port that closes in the middle of a read is not modelled.

=== FILE: bridge.dfy ===
/**
 The decision logic of the Jablotron-to-MQTT bridge: the mode translation for
 the Home Assistant alarm panel, the topics it subscribes to and how incoming
 messages are routed, what each engine callback publishes, and how it wires
 itself into the engine's callback chain.
 */
module MqttBridge {
  import opened Common
  import opened Tables
  import opened Events
  import opened Keys
  import opened Chain
  import opened StatusDiffing
  import opened Jablotron

  // ---------------------------------------------------------------------------
  // Mode translation
  // ---------------------------------------------------------------------------

  /** The string tests the rule list uses. */
  datatype Test =
    | Equals(text: string)
    | StartsWith(prefix: string)
    | Includes(part: string)
    | Always

  predicate Holds(t: Test, mode: string) {
    match t
    case Equals(text) => mode == text
    case StartsWith(prefix) => prefix <= mode
    case Includes(part) => Contains(mode, part)
    case Always => true
  }

  /** A Home Assistant mode and the test that selects it. */
  datatype Rule = Rule(mode: string, test: Test)

  /** The rule list, in the order it is tried. */
  const ModeRules: seq<Rule> := [
    Rule("armed_home", Equals("armedA")),
    Rule("armed_away", StartsWith("armed")),
    Rule("pending", StartsWith("arming")),
    Rule("triggered", Includes("alarm")),
    Rule("disarmed", Always)]

  /** The position of the first rule, from `from` on, whose test holds. */
  function FirstMatch(rules: seq<Rule>, mode: string, from: nat): (r: Option<nat>)
    requires from <= |rules|
    ensures r.Some? ==> from <= r.value < |rules| && Holds(rules[r.value].test, mode)
    ensures r.Some? ==> forall j :: from <= j < r.value ==> !Holds(rules[j].test, mode)
    ensures r.None? <==> forall j :: from <= j < |rules| ==> !Holds(rules[j].test, mode)
    decreases |rules| - from
  {
    if from == |rules| then None
    else if Holds(rules[from].test, mode) then Some(from)
    else FirstMatch(rules, mode, from + 1)
  }

  /** `on_alarm_mode`'s translation: the label of the first rule whose test holds. The last
      rule always holds, so every mode translates. */
  function TranslateMode(mode: string): (panel: string)
    ensures exists k :: 0 <= k < |ModeRules| && panel == ModeRules[k].mode
              && Holds(ModeRules[k].test, mode)
              && forall j :: 0 <= j < k ==> !Holds(ModeRules[j].test, mode)
  {
    assert Holds(ModeRules[4].test, mode);
    var k := FirstMatch(ModeRules, mode, 0);
    ModeRules[k.value].mode
  }

  /** "arming" does not start with "armed", so the pending rule is reachable. */
  lemma ArmingIsNotArmed(mode: string)
    requires "arming" <= mode
    ensures !("armed" <= mode)
  {
    assert mode[3] == "arming"[3] == 'i';
    assert "armed"[3] == 'e';
  }

  /** The translation case by case: each Home Assistant mode is selected exactly when the
      rules before it fail and its own test holds. */
  lemma TranslateModeCases(mode: string)
    ensures TranslateMode(mode) == "armed_home" <==> mode == "armedA"
    ensures TranslateMode(mode) == "armed_away" <==> mode != "armedA" && "armed" <= mode
    ensures TranslateMode(mode) == "pending" <==> "arming" <= mode
    ensures TranslateMode(mode) == "triggered" <==>
              !("armed" <= mode) && !("arming" <= mode) && Contains(mode, "alarm")
    ensures TranslateMode(mode) == "disarmed" <==>
              !("armed" <= mode) && !("arming" <= mode) && !Contains(mode, "alarm")
  {
    if "arming" <= mode {
      ArmingIsNotArmed(mode);
    }
    if mode == "armedA" {
      assert "armed" <= mode;
    }
    assert Holds(ModeRules[4].test, mode);
    var k := FirstMatch(ModeRules, mode, 0).value;
    assert TranslateMode(mode) == ModeRules[k].mode;
    assert Holds(ModeRules[0].test, mode) <==> mode == "armedA";
    assert Holds(ModeRules[1].test, mode) <==> "armed" <= mode;
    assert Holds(ModeRules[2].test, mode) <==> "arming" <= mode;
    assert Holds(ModeRules[3].test, mode) <==> Contains(mode, "alarm");
  }

  /** A label without an `l` never contains "alarm". */
  lemma NoLNoAlarm(s: string)
    requires 'l' !in s
    ensures !Contains(s, "alarm")
  {
    if Contains(s, "alarm") {
      ContainsChars(s, "alarm", 'l');
    }
  }

  /** A label that starts with neither "armed" nor "arming" and has no `l` is disarmed. */
  lemma PlainLabelIsDisarmed(s: string)
    requires !("armed" <= s) && !("arming" <= s) && 'l' !in s
    ensures TranslateMode(s) == "disarmed"
  {
    NoLNoAlarm(s);
    TranslateModeCases(s);
  }

  /** Every fallback label `Mode xx` is disarmed: it starts with `M` and no hex digit is `l`. */
  lemma FallbackModesAreDisarmed(b: byte)
    ensures TranslateMode("Mode " + Hex2(b)) == "disarmed"
  {
    var s := "Mode " + Hex2(b);
    forall i | 0 <= i < |s| ensures s[i] != 'l' {
      if i >= 5 {
        assert IsHexDigit(s[i]);
      }
    }
    assert s[0] == 'M';
    PlainLabelIsDisarmed(s);
  }

  lemma TamperIsTriggered()
    ensures TranslateMode("tamper alarm") == "triggered"
  {
    var s := "tamper alarm";
    assert "alarm" <= s[7..];
    ContainsAt(s, "alarm", 7);
    assert s[0] == 't';
    TranslateModeCases(s);
  }

  /** `armedA` is the home mode although it also starts with `armed`. */
  lemma ArmedHome()
    ensures TranslateMode("armedA") == "armed_home"
  {
    TranslateModeCases("armedA");
  }

  lemma ArmedAway(m: string)
    requires m == "armed" || m == "armedB"
    ensures TranslateMode(m) == "armed_away"
  {
    assert "armed" <= m;
    TranslateModeCases(m);
  }

  lemma Arming(m: string)
    requires m == "arming" || m == "armingA" || m == "armingB"
    ensures TranslateMode(m) == "pending"
  {
    assert "arming" <= m;
    TranslateModeCases(m);
  }

  lemma Disarmed(m: string)
    requires m == "service mode" || m == "user mode" || m == "disarmed"
    ensures TranslateMode(m) == "disarmed"
  {
    assert m[0] != 'a';
    PlainLabelIsDisarmed(m);
  }

  /** The labels the engine reports translate as the panel expects: `armedA` is the home
      mode; every other label starting with `armed` is away, the `arming` ones are
      pending, the tamper alarm is triggered, and the rest, fallback labels included, are
      disarmed. */
  lemma EngineModesTranslate(b: byte)
    ensures TranslateMode(ModeLabel(b)) ==
      (if b == 0x61 then "armed_home"
       else if b == 0x41 || b == 0x63 then "armed_away"
       else if b == 0x51 || b == 0x71 || b == 0x73 then "pending"
       else if b == 0x44 then "triggered"
       else "disarmed")
  {
    if b == 0x44 {
      assert ModeLabel(b) == "tamper alarm";
      TamperIsTriggered();
    } else if b == 0x61 {
      assert ModeLabel(b) == "armedA";
      ArmedHome();
    } else if b == 0x41 || b == 0x63 {
      ArmedAway(ModeMap[b]);
    } else if b == 0x51 || b == 0x71 || b == 0x73 {
      Arming(ModeMap[b]);
    } else if b == 0x00 || b == 0x20 || b == 0x40 {
      Disarmed(ModeMap[b]);
    } else {
      assert b !in ModeMap;
      FallbackModesAreDisarmed(b);
    }
  }

  // ---------------------------------------------------------------------------
  // Publishing and topic routing
  // ---------------------------------------------------------------------------

  datatype Payload = Text(text: string) | Number(n: int)

  /** One MQTT publish: full topic, payload and retain flag. */
  datatype Message = Message(topic: string, payload: Payload, retain: bool)

  /** The bridge: its base topic, whether the MQTT client is connected, and the engine. */
  datatype Bridge = Bridge(topic: string, connected: bool, alarm: Engine)

  /** `publish`: under the base topic when connected, dropped otherwise. */
  function Publish(b: Bridge, sub: string, payload: Payload, retain: bool): (msgs: seq<Message>)
    ensures |msgs| <= 1
    ensures msgs != [] <==> b.connected
    ensures forall m :: m in msgs ==> m.topic == b.topic + "/" + sub && m.payload == payload && m.retain == retain
  {
    if b.connected then [Message(b.topic + "/" + sub, payload, retain)] else []
  }

  /** The keys of the MQTT handler table. */
  const HandlerKeys: seq<string> := ["key/press"]

  /** `_mqtt_topics`: one subscription per handler key, under the base topic. */
  function MqttTopics(base: string): (topics: seq<string>)
    ensures |topics| == |HandlerKeys|
    ensures forall i :: 0 <= i < |topics| ==> topics[i] == base + "/" + HandlerKeys[i]
  {
    seq(|HandlerKeys|, i requires 0 <= i < |HandlerKeys| => base + "/" + HandlerKeys[i])
  }

  /** The handler key of an incoming topic: known topics lose the base topic and its
      separator; any other topic is not dispatched. */
  function Route(base: string, topic: string): (key: Option<string>)
    ensures key.Some? <==> topic in MqttTopics(base)
    ensures key.Some? ==> key.value in HandlerKeys && base + "/" + key.value == topic
  {
    var topics := MqttTopics(base);
    if topic in topics then
      var i :| 0 <= i < |topics| && topics[i] == topic;
      assert topic[|base| + 1..] == HandlerKeys[i];
      Some(topic[|base| + 1..])
    else None
  }

  /** Routing inverts topic construction: every handler key comes back from its topic. */
  lemma RouteRecoversKey(base: string, key: string)
    requires key in HandlerKeys
    ensures Route(base, base + "/" + key) == Some(key)
  {
    var i :| 0 <= i < |HandlerKeys| && HandlerKeys[i] == key;
    assert MqttTopics(base)[i] == base + "/" + key;
  }

  /** What one bridge callback does: the messages it publishes and the bytes the engine
      writes to the serial line on its behalf. */
  datatype Reaction = Reaction(published: seq<Message>, written: seq<byte>)

  /** `on_mqtt_key_press`: sends the keys; an invalid key publishes an error on `key`
      instead of letting the exception escape. The valid prefix is still written. */
  function OnMqttKeyPress(b: Bridge, payload: string): (r: Reaction)
    ensures r.written == SendKeys(payload).written
    ensures SendKeys(payload).error.None? ==> r.published == []
    ensures SendKeys(payload).error.Some? ==>
              r.published == Publish(b, "key", Text("Error: invalid key"), false)
  {
    var sent := SendKeys(payload);
    if sent.error.Some? then Reaction(Publish(b, "key", Text("Error: invalid key"), false), sent.written)
    else Reaction([], sent.written)
  }

  /** `on_mqtt_message`: only the subscribed topics reach their handler. */
  function OnMqttMessage(b: Bridge, topic: string, payload: string): (r: Reaction)
    ensures topic !in MqttTopics(b.topic) ==> r == Reaction([], [])
    ensures topic == b.topic + "/key/press" ==> r == OnMqttKeyPress(b, payload)
  {
    assert b.topic + "/" + "key/press" == b.topic + "/key/press";
    assert MqttTopics(b.topic)[0] == b.topic + "/key/press";
    match Route(b.topic, topic)
    case None => Reaction([], [])
    case Some(key) =>
      assert key == "key/press";
      OnMqttKeyPress(b, payload)
  }

  /** A message with an invalid key on the key topic publishes the error and writes nothing. */
  lemma InvalidKeyPublishesError(b: Bridge)
    requires b.connected
    ensures OnMqttMessage(b, b.topic + "/key/press", "X")
         == Reaction([Message(b.topic + "/key", Text("Error: invalid key"), false)], [])
  {
    InvalidKeyX();
    assert b.topic + "/" + "key" == b.topic + "/key";
    assert b.topic + "/" + "key/press" == b.topic + "/key/press";
  }

  // ---------------------------------------------------------------------------
  // Engine callbacks
  // ---------------------------------------------------------------------------

  /** `on_alarm_key`: the key, as a one-character text, on `key`, not retained. */
  function OnAlarmKey(b: Bridge, key: char): (msgs: seq<Message>)
    ensures msgs == if b.connected then [Message(b.topic + "/key", Text([key]), false)] else []
  {
    assert b.topic + "/" + "key" == b.topic + "/key";
    Publish(b, "key", Text([key]), false)
  }

  /** `on_alarm_mode`: the translated panel mode on `mode`, retained. */
  function OnAlarmMode(b: Bridge, mode: string): (msgs: seq<Message>)
    ensures msgs == if b.connected then [Message(b.topic + "/mode", Text(TranslateMode(mode)), true)] else []
  {
    assert b.topic + "/" + "mode" == b.topic + "/mode";
    Publish(b, "mode", Text(TranslateMode(mode)), true)
  }

  /** `on_alarm_display`: the display text unchanged on `display`, retained. */
  function OnAlarmDisplay(b: Bridge, text: string): (msgs: seq<Message>)
    ensures msgs == if b.connected then [Message(b.topic + "/display", Text(text), true)] else []
  {
    assert b.topic + "/" + "display" == b.topic + "/display";
    Publish(b, "display", Text(text), true)
  }

  /** `on_alarm_led`: one retained publish per entry of the delta, on `leds/<name>`, with
      1 for lit and 0 for dark; nothing for an empty delta or while disconnected. */
  function OnAlarmLed(b: Bridge, delta: seq<LedChange>): (msgs: seq<Message>)
    ensures b.connected ==> |msgs| == |delta|
    ensures !b.connected ==> msgs == []
    ensures forall i :: 0 <= i < |msgs| ==>
              msgs[i] == Message(b.topic + "/leds/" + delta[i].name, Number(if delta[i].on then 1 else 0), true)
  {
    if |delta| == 0 then []
    else
      var first := Publish(b, "leds/" + delta[0].name, Number(if delta[0].on then 1 else 0), true);
      var rest := OnAlarmLed(b, delta[1..]);
      assert b.topic + "/" + ("leds/" + delta[0].name) == b.topic + "/leds/" + delta[0].name;
      var msgs := first + rest;
      assert b.connected ==> forall i :: 1 <= i < |msgs| ==> msgs[i] == rest[i - 1];
      msgs
  }

  /** The retained message that reports one table LED's new state. */
  function LedMessage(b: Bridge, led: Led, next: byte): Message {
    Message(b.topic + "/leds/" + led.name, Number(if BitAnd(next, led.bit) != 0 then 1 else 0), true)
  }

  /** Every LED message of a status frame reports a table LED whose bit flipped. */
  lemma LedMessagesAreFlips(b: Bridge, prev: byte, next: byte)
    requires b.connected
    ensures forall m :: m in OnAlarmLed(b, LedDelta(prev, next)) ==>
              exists k :: 0 <= k < |LedMap| && Flipped(LedMap[k], prev, next) && m == LedMessage(b, LedMap[k], next)
  {
    var delta := LedDelta(prev, next);
    var msgs := OnAlarmLed(b, delta);
    LedDeltaMeaning(prev, next);
    forall m | m in msgs
      ensures exists k :: 0 <= k < |LedMap| && Flipped(LedMap[k], prev, next) && m == LedMessage(b, LedMap[k], next)
    {
      var i :| 0 <= i < |msgs| && msgs[i] == m;
      assert delta[i] in delta;
      var k :| 0 <= k < |LedMap| && Flipped(LedMap[k], prev, next) && delta[i] == Now(LedMap[k], next);
      assert m == LedMessage(b, LedMap[k], next);
    }
  }

  /** Every table LED whose bit flipped has its message among a status frame's LED messages. */
  lemma FlipsArePublished(b: Bridge, prev: byte, next: byte)
    requires b.connected
    ensures forall k :: 0 <= k < |LedMap| && Flipped(LedMap[k], prev, next) ==>
              LedMessage(b, LedMap[k], next) in OnAlarmLed(b, LedDelta(prev, next))
  {
    var delta := LedDelta(prev, next);
    var msgs := OnAlarmLed(b, delta);
    LedDeltaMeaning(prev, next);
    forall k | 0 <= k < |LedMap| && Flipped(LedMap[k], prev, next)
      ensures LedMessage(b, LedMap[k], next) in msgs
    {
      assert Now(LedMap[k], next) in delta;
      var i :| 0 <= i < |delta| && delta[i] == Now(LedMap[k], next);
      assert msgs[i] == LedMessage(b, LedMap[k], next);
    }
  }

  /** A status frame's LED byte, fanned out: while connected, the bridge publishes exactly
      one message per table LED whose bit flipped, on that LED's topic, with 1 if it is now
      lit and 0 if not; LEDs whose bit is unchanged publish nothing. */
  lemma LedFanOut(b: Bridge, prev: byte, next: byte)
    requires b.connected
    ensures forall m :: m in OnAlarmLed(b, LedDelta(prev, next)) <==>
              exists k :: 0 <= k < |LedMap| && Flipped(LedMap[k], prev, next) && m == LedMessage(b, LedMap[k], next)
    ensures |OnAlarmLed(b, LedDelta(prev, next))| == |LedDelta(prev, next)|
  {
    LedMessagesAreFlips(b, prev, next);
    FlipsArePublished(b, prev, next);
  }

  /** `on_alarm_message`: publishes the frame as hex on `raw`. It never consumes; that is
      the engine's `RawPublisher` verdict. */
  function OnAlarmMessage(b: Bridge, frame: seq<byte>): (msgs: seq<Message>)
    ensures b.connected ==> |msgs| == 1 && msgs[0].topic == b.topic + "/raw" && !msgs[0].retain
    ensures b.connected ==> msgs[0].payload.Text? && ParseHexLine(msgs[0].payload.text) == Some(frame)
    ensures !b.connected ==> msgs == []
  {
    assert b.topic + "/" + "raw" == b.topic + "/raw";
    HexLineRoundTrip(frame);
    Publish(b, "raw", Text(HexLine(frame)), false)
  }

  /** The bridge's reaction to one engine output: each notification goes to the `on_alarm_*`
      handler the bridge installed for its property, the raw-frame line is published on
      `raw`, and printed lines go to the console only. The notification is routed by its
      event's kind and the subscriber it names is not read: this is the bridge's own wiring,
      where every property holds the matching handler (`SetupJablotron` ensures
      `e.slots == BridgeSlots`), not a rule for engines subscribed otherwise. */
  function React(b: Bridge, o: Output): (msgs: seq<Message>)
    ensures o.Printed? ==> msgs == []
    ensures !b.connected ==> msgs == []
    ensures o.Notified? && o.event.KeyPressed? ==> msgs == OnAlarmKey(b, o.event.key)
    ensures o.Notified? && o.event.ModeChanged? ==> msgs == OnAlarmMode(b, o.event.mode)
    ensures o.Notified? && o.event.LedsChanged? ==> msgs == OnAlarmLed(b, o.event.delta)
    ensures o.Notified? && o.event.DisplayChanged? ==> msgs == OnAlarmDisplay(b, o.event.text)
    ensures o.RawPublished? ==> msgs == if b.connected then [Message(b.topic + "/raw", Text(o.line), false)] else []
  {
    match o
    case Notified(_, event) =>
      (match event
       case KeyPressed(key) => OnAlarmKey(b, key)
       case ModeChanged(mode) => OnAlarmMode(b, mode)
       case LedsChanged(delta) => OnAlarmLed(b, delta)
       case DisplayChanged(text) => OnAlarmDisplay(b, text))
    case Printed(_) => []
    case RawPublished(line) =>
      assert b.topic + "/" + "raw" == b.topic + "/raw";
      Publish(b, "raw", Text(line), false)
  }

  /** What the bridge publishes for a sequence of engine outputs, in order. */
  function PublishAll(b: Bridge, outs: seq<Output>): seq<Message> {
    if |outs| == 0 then [] else React(b, outs[0]) + PublishAll(b, outs[1..])
  }

  lemma {:induction false} PublishAllSplit(b: Bridge, x: seq<Output>, y: seq<Output>)
    ensures PublishAll(b, x + y) == PublishAll(b, x) + PublishAll(b, y)
    decreases |x|
  {
    if |x| == 0 {
      assert x + y == y;
    } else {
      assert (x + y)[0] == x[0] && (x + y)[1..] == x[1..] + y;
      PublishAllSplit(b, x[1..], y);
    }
  }

  /** The engine's raw-frame output publishes what `on_alarm_message` publishes. */
  lemma RawOutputIsAlarmMessage(b: Bridge, frame: seq<byte>)
    ensures React(b, RawPublished(HexLine(frame))) == OnAlarmMessage(b, frame)
  {
  }

  // ---------------------------------------------------------------------------
  // Wiring
  // ---------------------------------------------------------------------------

  /** The subscribers the bridge installs. */
  const BridgeSlots: Slots := Slots(
    Some(Subscriber("on_alarm_key")), Some(Subscriber("on_alarm_mode")),
    Some(Subscriber("on_alarm_led")), Some(Subscriber("on_alarm_display")))

  /** `_setup_jablotron`: a fresh engine, then the duplicate suppressor on status frames and
      the raw publisher on every frame, then the four subscribers. */
  function SetupJablotron(): (e: Engine)
    ensures e.chain == InternalChain()
                       + [Chain.Registration(RemoveDuplicities, Exactly(0xE0)),
                          Chain.Registration(RawPublisher, [])]
    ensures e.buffer == [] && e.status == Initial && e.lastChecksum == 0
    ensures e.slots == BridgeSlots
  {
    var e := NewEngine();
    var e := RegisterCallback(e, RemoveDuplicities, Exactly(0xE0));
    var e := RegisterCallback(e, RawPublisher, []);
    var e := Subscribe(e, OnKeyPress, BridgeSlots.keyPress);
    var e := Subscribe(e, OnModeChange, BridgeSlots.modeChange);
    var e := Subscribe(e, OnDisplayChange, BridgeSlots.displayChange);
    var e := Subscribe(e, OnLedChange, BridgeSlots.ledChange);
    assert e.slots == BridgeSlots;
    e
  }

  /** The bridge's chain: twelve key decoders (0..11), the status decoder (12), the
      suppressor (13), the raw publisher (14). */
  predicate Wired(e: Engine) {
    e.chain == SetupJablotron().chain
  }

  const StatusIndex: nat := 12
  const SuppressorIndex: nat := 13
  const RawIndex: nat := 14

  lemma WiredLayout(e: Engine)
    requires Wired(e)
    ensures |e.chain| == 15
    ensures forall k :: 0 <= k < 12 ==> e.chain[k].handler == KeyDecoder && e.chain[k].mask == Exactly(KeyCodes[k])
    ensures e.chain[StatusIndex] == Chain.Registration(StatusDecoder, Exactly(0xE0))
    ensures e.chain[SuppressorIndex] == Chain.Registration(RemoveDuplicities, Exactly(0xE0))
    ensures e.chain[RawIndex] == Chain.Registration(RawPublisher, [])
  {
  }

  /** On the wired chain only the status decoder, the suppressor and (never) the raw
      publisher can stop a walk, and the first two only on status frames. */
  lemma OnlyStatusHandlersStop(e: Engine, frame: seq<byte>, k: nat)
    requires Wired(e) && k < |e.chain|
    requires MayConsume(e.chain[k].handler) || MayRaise(e.chain[k].handler, frame)
    ensures k == StatusIndex || k == SuppressorIndex
  {
    WiredLayout(e);
  }

  /** A frame that does not start with 0xE0 always reaches the raw publisher, and never the
      status decoder or the suppressor. */
  lemma OtherFramesReachRawPublisher(e: Engine, frame: seq<byte>)
    requires Wired(e) && |frame| > 0 && frame[0] != 0xE0
    ensures Ran(Dispatch(e, frame).steps, RawIndex)
    ensures !Ran(Dispatch(e, frame).steps, StatusIndex) && !Ran(Dispatch(e, frame).steps, SuppressorIndex)
    ensures !Stopped(Dispatch(e, frame).steps)
  {
    WiredLayout(e);
    var steps := Dispatch(e, frame).steps;
    WalkOrder(e, frame, 0);
    WalkStops(e, frame, 0);
    ChainOrderMeaning(e.chain, frame, 0, steps);
    assert !Matches(frame, e.chain[StatusIndex].mask);
    assert !Matches(frame, e.chain[SuppressorIndex].mask);
    MaskTruncation(frame, e.chain[RawIndex].mask);
    if Stopped(steps) {
      var k := steps[|steps| - 1].index;
      OnlyStatusHandlersStop(e, frame, k);
      assert false;
    }
  }

  /** The status decoder sees every status frame: the duplicate suppressor is registered
      after it, and no key decoder matches a 0xE0 frame or stops a walk. */
  lemma StatusDecoderSeesEveryStatusFrame(e: Engine, frame: seq<byte>)
    requires Wired(e) && |frame| > 0 && frame[0] == 0xE0
    ensures Ran(Dispatch(e, frame).steps, StatusIndex)
  {
    WiredLayout(e);
    var steps := Dispatch(e, frame).steps;
    WalkOrder(e, frame, 0);
    WalkStops(e, frame, 0);
    ChainOrderMeaning(e.chain, frame, 0, steps);
    assert Matches(frame, e.chain[StatusIndex].mask);
    if Stopped(steps) {
      var k := steps[|steps| - 1].index;
      OnlyStatusHandlersStop(e, frame, k);
    }
  }

  /** The raw publisher at the end of the chain runs on every frame and changes nothing. */
  lemma RawStep(e: Engine, frame: seq<byte>)
    requires Wired(e)
    ensures Walk(e, frame, RawIndex).steps == [Step(RawIndex, NotConsumed)]
    ensures Walk(e, frame, RawIndex).engine == e
    ensures Walk(e, frame, RawIndex).out == [RawPublished(HexLine(frame))]
  {
    WiredLayout(e);
    MaskTruncation(frame, []);
    assert Invoke(e, RawPublisher, frame).engine == e;
    assert Invoke(e, RawPublisher, frame).verdict == NotConsumed;
    assert Walk(e, frame, RawIndex + 1) == Dispatched(e, [], []);
  }

  /** The suppressor on a status frame: it remembers the trailer, and the raw publisher
      runs after it only if it let the frame through. */
  lemma SuppressorStep(e: Engine, frame: seq<byte>)
    requires Wired(e) && |frame| > 0 && frame[0] == 0xE0
    ensures var v := Deduplicate(e.lastChecksum, frame).verdict;
            Walk(e, frame, SuppressorIndex).steps
            == [Step(SuppressorIndex, v)] + (if v == NotConsumed then [Step(RawIndex, NotConsumed)] else [])
    ensures Walk(e, frame, SuppressorIndex).engine == e.(lastChecksum := Checksum(frame))
  {
    WiredLayout(e);
    var d := Deduplicate(e.lastChecksum, frame);
    var e2 := e.(lastChecksum := d.last);
    assert Matches(frame, e.chain[SuppressorIndex].mask);
    assert Invoke(e, RemoveDuplicities, frame) == Invocation(e2, [], d.verdict);
    if d.verdict == NotConsumed {
      RawStep(e2, frame);
    }
  }

  /** The suppressor itself outputs nothing; the raw line follows only if it let the
      frame through. */
  lemma SuppressorStepOutput(e: Engine, frame: seq<byte>)
    requires Wired(e) && |frame| > 0 && frame[0] == 0xE0
    ensures Walk(e, frame, SuppressorIndex).out
         == if Deduplicate(e.lastChecksum, frame).verdict == NotConsumed then [RawPublished(HexLine(frame))] else []
  {
    WiredLayout(e);
    var d := Deduplicate(e.lastChecksum, frame);
    var e2 := e.(lastChecksum := d.last);
    assert Matches(frame, e.chain[SuppressorIndex].mask);
    assert Invoke(e, RemoveDuplicities, frame) == Invocation(e2, [], d.verdict);
    if d.verdict == NotConsumed {
      RawStep(e2, frame);
    }
  }

  /** The status decoder on a complete status frame updates the memory and passes the
      frame on to the suppressor. */
  lemma StatusStep(e: Engine, frame: seq<byte>)
    requires Wired(e) && |frame| >= 4 && frame[0] == 0xE0
    ensures var e1 := e.(status := StatusUpdate(e.status, frame).status);
            && Walk(e, frame, StatusIndex).steps == [Step(StatusIndex, NotConsumed)] + Walk(e1, frame, SuppressorIndex).steps
            && Walk(e, frame, StatusIndex).engine == Walk(e1, frame, SuppressorIndex).engine
  {
    WiredLayout(e);
    var u := StatusUpdate(e.status, frame);
    var e1 := e.(status := u.status);
    assert Matches(frame, e.chain[StatusIndex].mask);
    assert Invoke(e, StatusDecoder, frame).engine == e1;
    assert Invoke(e, StatusDecoder, frame).verdict == NotConsumed;
  }

  /** The status decoder's deliveries come first, before whatever the rest of the walk outputs. */
  lemma StatusStepOutput(e: Engine, frame: seq<byte>)
    requires Wired(e) && |frame| >= 4 && frame[0] == 0xE0
    ensures var e1 := e.(status := StatusUpdate(e.status, frame).status);
            Walk(e, frame, StatusIndex).out
            == Deliver(e.slots, RaisedEvents(StatusUpdate(e.status, frame))) + Walk(e1, frame, SuppressorIndex).out
  {
    WiredLayout(e);
    var u := StatusUpdate(e.status, frame);
    assert Matches(frame, e.chain[StatusIndex].mask);
    assert Invoke(e, StatusDecoder, frame) == Invocation(e.(status := u.status), Deliver(e.slots, RaisedEvents(u)), NotConsumed);
  }

  /** No key decoder matches a status frame. */
  lemma KeyDecodersSkipStatusFrames(e: Engine, frame: seq<byte>)
    requires Wired(e) && |frame| > 0 && frame[0] == 0xE0
    ensures Walk(e, frame, 0) == Walk(e, frame, StatusIndex)
  {
    WiredLayout(e);
    KeyCodesAreTheKeyMapValues();
    forall k | 0 <= k < StatusIndex ensures !Matches(frame, e.chain[k].mask) {
      assert KeyCodes[k] in KeyMapInversed;
    }
    WalkSkips(e, frame, 0, StatusIndex);
  }

  /** On a complete status frame the walk is: status decoder, suppressor, and the raw
      publisher only if the suppressor let the frame through. The suppressor can hide a
      frame from the raw publisher, never from the status decoder. */
  lemma StatusFrameDispatch(e: Engine, frame: seq<byte>)
    requires Wired(e) && |frame| >= 4 && frame[0] == 0xE0
    ensures var v := Deduplicate(e.lastChecksum, frame).verdict;
            Dispatch(e, frame).steps
            == [Step(StatusIndex, NotConsumed), Step(SuppressorIndex, v)]
               + (if v == NotConsumed then [Step(RawIndex, NotConsumed)] else [])
    ensures Dispatch(e, frame).engine.status == StatusUpdate(e.status, frame).status
    ensures Dispatch(e, frame).engine.lastChecksum == Checksum(frame)
  {
    KeyDecodersSkipStatusFrames(e, frame);
    StatusStep(e, frame);
    var e1 := e.(status := StatusUpdate(e.status, frame).status);
    SuppressorStep(e1, frame);
  }

  /** What a complete status frame makes the wired engine do outside itself: the status
      decoder's deliveries, then the raw line unless the suppressor consumed the frame. */
  lemma StatusFrameOutputs(e: Engine, frame: seq<byte>)
    requires Wired(e) && |frame| >= 4 && frame[0] == 0xE0
    ensures Dispatch(e, frame).out
         == Deliver(e.slots, RaisedEvents(StatusUpdate(e.status, frame)))
            + (if Deduplicate(e.lastChecksum, frame).verdict == NotConsumed then [RawPublished(HexLine(frame))] else [])
  {
    KeyDecodersSkipStatusFrames(e, frame);
    StatusStepOutput(e, frame);
    var e1 := e.(status := StatusUpdate(e.status, frame).status);
    SuppressorStepOutput(e1, frame);
  }

  /** One event through the bridge's subscribers publishes what its `on_alarm_*` handler does. */
  lemma PublishEvent(b: Bridge, ev: Event)
    ensures ev.KeyPressed? ==> PublishAll(b, Deliver(BridgeSlots, [ev])) == OnAlarmKey(b, ev.key)
    ensures ev.ModeChanged? ==> PublishAll(b, Deliver(BridgeSlots, [ev])) == OnAlarmMode(b, ev.mode)
    ensures ev.LedsChanged? ==> PublishAll(b, Deliver(BridgeSlots, [ev])) == OnAlarmLed(b, ev.delta)
    ensures ev.DisplayChanged? ==> PublishAll(b, Deliver(BridgeSlots, [ev])) == OnAlarmDisplay(b, ev.text)
  {
    DeliverOne(BridgeSlots, ev);
    var o := Deliver(BridgeSlots, [ev]);
    assert |o| == 1 && o[0].Notified? && o[0].event == ev;
    assert PublishAll(b, o) == React(b, o[0]) + PublishAll(b, o[1..]);
  }

  /** The events of one status frame, through the bridge's subscribers: the mode, LED and
      display handlers' messages, in that order, each only if its check raised an event. */
  lemma PublishStatusEvents(b: Bridge, r: StatusResult)
    ensures PublishAll(b, Deliver(BridgeSlots, RaisedEvents(r)))
         == (if r.modeChange.Some? then OnAlarmMode(b, r.modeChange.value) else [])
            + (if r.ledChange.Some? then OnAlarmLed(b, r.ledChange.value) else [])
            + (if r.displayChange.Some? then OnAlarmDisplay(b, r.displayChange.value) else [])
  {
    var m: seq<Event> := match r.modeChange case Some(x) => [ModeChanged(x)] case None => [];
    var l: seq<Event> := match r.ledChange case Some(x) => [LedsChanged(x)] case None => [];
    var d: seq<Event> := match r.displayChange case Some(x) => [DisplayChanged(x)] case None => [];
    assert RaisedEvents(r) == m + l + d;
    DeliverSplit(BridgeSlots, m + l, d);
    DeliverSplit(BridgeSlots, m, l);
    var dm, dl, dd := Deliver(BridgeSlots, m), Deliver(BridgeSlots, l), Deliver(BridgeSlots, d);
    PublishAllSplit(b, dm + dl, dd);
    PublishAllSplit(b, dm, dl);
    if r.modeChange.Some? { PublishEvent(b, ModeChanged(r.modeChange.value)); }
    if r.ledChange.Some? { PublishEvent(b, LedsChanged(r.ledChange.value)); }
    if r.displayChange.Some? { PublishEvent(b, DisplayChanged(r.displayChange.value)); }
  }

  /** The three status messages, read off the frame's bytes and the memory. */
  lemma StatusChangesOfFrame(b: Bridge, s: Status, frame: seq<byte>)
    requires |frame| >= 4
    ensures var r := StatusUpdate(s, frame);
            (if r.modeChange.Some? then OnAlarmMode(b, r.modeChange.value) else [])
            + (if r.ledChange.Some? then OnAlarmLed(b, r.ledChange.value) else [])
            + (if r.displayChange.Some? then OnAlarmDisplay(b, r.displayChange.value) else [])
            == (if Some(frame[1]) != s.mode then OnAlarmMode(b, ModeLabel(frame[1])) else [])
               + (if frame[2] != s.leds then OnAlarmLed(b, LedDelta(s.leds, frame[2])) else [])
               + (if Some(frame[3]) != s.display then OnAlarmDisplay(b, DisplayLabel(frame[3])) else [])
  {
  }

  /** The raw line the suppressor lets through is published as `on_alarm_message` does; a
      repeated trailer publishes nothing. */
  lemma PublishRawUnlessRepeat(b: Bridge, last: byte, frame: seq<byte>)
    requires |frame| > 0
    ensures PublishAll(b, if Deduplicate(last, frame).verdict == NotConsumed then [RawPublished(HexLine(frame))] else [])
         == if Checksum(frame) != last then OnAlarmMessage(b, frame) else []
  {
    if Checksum(frame) != last {
      var raw := [RawPublished(HexLine(frame))];
      assert PublishAll(b, raw) == React(b, raw[0]) + PublishAll(b, raw[1..]);
      RawOutputIsAlarmMessage(b, frame);
    }
  }

  /** What the wired bridge publishes for a complete status frame, end to end: the
      translated mode if the mode byte changed, one message per flipped LED if the LED byte
      changed, the display text if the display byte changed, in that order, and then the
      raw line unless the suppressor swallowed the frame as a repeat. */
  lemma StatusFramePublishes(b: Bridge, frame: seq<byte>)
    requires Wired(b.alarm) && b.alarm.slots == BridgeSlots
    requires |frame| >= 4 && frame[0] == 0xE0
    ensures var e := b.alarm;
            PublishAll(b, Dispatch(e, frame).out)
            == (if Some(frame[1]) != e.status.mode then OnAlarmMode(b, ModeLabel(frame[1])) else [])
               + (if frame[2] != e.status.leds then OnAlarmLed(b, LedDelta(e.status.leds, frame[2])) else [])
               + (if Some(frame[3]) != e.status.display then OnAlarmDisplay(b, DisplayLabel(frame[3])) else [])
               + (if Checksum(frame) != e.lastChecksum then OnAlarmMessage(b, frame) else [])
  {
    var e := b.alarm;
    var u := StatusUpdate(e.status, frame);
    var events := Deliver(BridgeSlots, RaisedEvents(u));
    var raw: seq<Output> := if Deduplicate(e.lastChecksum, frame).verdict == NotConsumed then [RawPublished(HexLine(frame))] else [];
    StatusFrameOutputs(e, frame);
    assert Dispatch(e, frame).out == events + raw;
    PublishAllSplit(b, events, raw);
    var changes := (if Some(frame[1]) != e.status.mode then OnAlarmMode(b, ModeLabel(frame[1])) else [])
                   + (if frame[2] != e.status.leds then OnAlarmLed(b, LedDelta(e.status.leds, frame[2])) else [])
                   + (if Some(frame[3]) != e.status.display then OnAlarmDisplay(b, DisplayLabel(frame[3])) else []);
    assert PublishAll(b, events) == changes by {
      PublishStatusEvents(b, u);
      StatusChangesOfFrame(b, e.status, frame);
    }
    PublishRawUnlessRepeat(b, e.lastChecksum, frame);
  }
}

=== FILE: chain.dfy ===
/**
 The callback chain's static part: prefix masks and how a frame matches one,
 registrations and how they are appended, and the trace a dispatch leaves
 (which registrations ran, and what each of them answered).
 */
module Chain {
  import opened Common

  /** A prefix mask: position i, when present, must equal byte i of the frame;
      `None` is a wildcard. */
  type Mask = seq<Option<byte>>

  /** The matching rule: the mask agrees with the frame wherever both are defined. */
  ghost predicate Agrees(frame: seq<byte>, mask: Mask) {
    forall i :: 0 <= i < |frame| && i < |mask| ==> mask[i].None? || mask[i].value == frame[i]
  }

  /** The pairwise walk over frame and mask, truncated to the shorter of the two,
      that fails at the first defined mask byte the frame does not repeat. */
  function Matches(frame: seq<byte>, mask: Mask): bool
    decreases |mask|
  {
    if |frame| == 0 || |mask| == 0 then true
    else if mask[0].Some? && mask[0].value != frame[0] then false
    else Matches(frame[1..], mask[1..])
  }

  /** The walk implements the matching rule, in both directions. */
  lemma {:induction false} MatchesIffAgrees(frame: seq<byte>, mask: Mask)
    ensures Matches(frame, mask) <==> Agrees(frame, mask)
    decreases |mask|
  {
    if |frame| > 0 && |mask| > 0 && !(mask[0].Some? && mask[0].value != frame[0]) {
      MatchesIffAgrees(frame[1..], mask[1..]);
      if Matches(frame, mask) {
        forall i | 1 <= i < |frame| && i < |mask|
          ensures mask[i].None? || mask[i].value == frame[i]
        {
          assert mask[1..][i - 1] == mask[i] && frame[1..][i - 1] == frame[i];
        }
      }
      if Agrees(frame, mask) {
        forall i | 0 <= i < |frame[1..]| && i < |mask[1..]|
          ensures mask[1..][i].None? || mask[1..][i].value == frame[1..][i]
        {
          assert mask[i + 1].None? || mask[i + 1].value == frame[i + 1];
        }
      }
    }
  }

  /** An empty mask matches every frame, and a mask longer than the frame is only
      compared on the frame's length. */
  lemma MaskTruncation(frame: seq<byte>, mask: Mask)
    ensures Matches(frame, [])
    ensures |mask| > |frame| ==> (Matches(frame, mask) <==> Matches(frame, mask[..|frame|]))
  {
    MatchesIffAgrees(frame, []);
    if |mask| > |frame| {
      MatchesIffAgrees(frame, mask);
      MatchesIffAgrees(frame, mask[..|frame|]);
      assert forall i :: 0 <= i < |frame| ==> mask[..|frame|][i] == mask[i];
    }
  }

  /** A mask made only of wildcards matches every frame. */
  lemma WildcardsMatchAll(frame: seq<byte>, mask: Mask)
    requires forall i :: 0 <= i < |mask| ==> mask[i].None?
    ensures Matches(frame, mask)
  {
    MatchesIffAgrees(frame, mask);
  }

  /** The mask of one exact leading byte. */
  function Exactly(b: byte): Mask {
    [Some(b)]
  }

  /** A one-byte mask matches exactly the frames that start with that byte (or are empty). */
  lemma ExactlyMatches(frame: seq<byte>, b: byte)
    ensures Matches(frame, Exactly(b)) <==> |frame| == 0 || frame[0] == b
  {
  }

  datatype Registration<H> = Registration(handler: H, mask: Mask)

  /** `register_callback`: appends; what was registered before keeps its position. */
  function Register<H>(chain: seq<Registration<H>>, handler: H, mask: Mask): (r: seq<Registration<H>>)
    ensures |r| == |chain| + 1
    ensures r[..|chain|] == chain
    ensures r[|chain|] == Registration(handler, mask)
  {
    chain + [Registration(handler, mask)]
  }

  /** What one handler answered: let the frame go on, consume it, or raise. */
  datatype Verdict = NotConsumed | Consumed | Raised

  /** One handler invocation during a dispatch: the registration's position and its answer. */
  datatype Step = Step(index: nat, verdict: Verdict)

  /** The positions, from `from` on, of the registrations whose mask matches the frame,
      in chain order: the reference for which handlers a dispatch runs. */
  function MatchingFrom<H>(chain: seq<Registration<H>>, frame: seq<byte>, from: nat): seq<nat>
    decreases |chain| - from
  {
    if from >= |chain| then []
    else if Matches(frame, chain[from].mask) then [from] + MatchingFrom(chain, frame, from + 1)
    else MatchingFrom(chain, frame, from + 1)
  }

  /** The reference list is exactly the matching positions from `from` on, ascending. */
  lemma {:induction false} MatchingFromMeaning<H>(chain: seq<Registration<H>>, frame: seq<byte>, from: nat)
    ensures var m := MatchingFrom(chain, frame, from);
            && (forall k :: 0 <= k < |m| ==> from <= m[k] < |chain| && Matches(frame, chain[m[k]].mask))
            && (forall j, k :: 0 <= j < k < |m| ==> m[j] < m[k])
            && (forall j :: from <= j < |chain| && Matches(frame, chain[j].mask) ==> j in m)
    decreases |chain| - from
  {
    if from < |chain| {
      MatchingFromMeaning(chain, frame, from + 1);
      var rest := MatchingFrom(chain, frame, from + 1);
      if Matches(frame, chain[from].mask) {
        var m := [from] + rest;
        assert forall k :: 1 <= k < |m| ==> m[k] == rest[k - 1];
      }
    }
  }

  /** The registration positions a trace visited, in order. */
  function Indices(steps: seq<Step>): (ix: seq<nat>)
    ensures |ix| == |steps|
    ensures forall k :: 0 <= k < |steps| ==> ix[k] == steps[k].index
  {
    if |steps| == 0 then [] else [steps[0].index] + Indices(steps[1..])
  }

  /** Registration `j` ran during the dispatch. */
  predicate Ran(steps: seq<Step>, j: nat) {
    exists k :: 0 <= k < |steps| && steps[k].index == j
  }

  /** The dispatch ended early: its last handler consumed the frame or raised. */
  predicate Stopped(steps: seq<Step>) {
    |steps| > 0 && steps[|steps| - 1].verdict != NotConsumed
  }

  /** The shape of every dispatch trace over `chain` from position `from`: it visits a
      prefix of the matching registrations, all of them unless it stopped early, and only
      its last handler may have stopped it. */
  ghost predicate ChainOrder<H>(chain: seq<Registration<H>>, frame: seq<byte>, from: nat, steps: seq<Step>) {
    && Indices(steps) <= MatchingFrom(chain, frame, from)
    && (!Stopped(steps) ==> Indices(steps) == MatchingFrom(chain, frame, from))
    && (forall k :: 0 <= k < |steps| - 1 ==> steps[k].verdict == NotConsumed)
  }

  lemma ChainOrderEnd<H>(chain: seq<Registration<H>>, frame: seq<byte>)
    ensures ChainOrder(chain, frame, |chain|, [])
  {
  }

  /** A registration that does not match is passed over without a step. */
  lemma ChainOrderSkip<H>(chain: seq<Registration<H>>, frame: seq<byte>, i: nat, steps: seq<Step>)
    requires i < |chain| && !Matches(frame, chain[i].mask)
    requires ChainOrder(chain, frame, i + 1, steps)
    ensures ChainOrder(chain, frame, i, steps)
  {
  }

  /** A matching registration whose handler stops the walk is its last step. */
  lemma ChainOrderStop<H>(chain: seq<Registration<H>>, frame: seq<byte>, i: nat, v: Verdict)
    requires i < |chain| && Matches(frame, chain[i].mask) && v != NotConsumed
    ensures ChainOrder(chain, frame, i, [Step(i, v)])
  {
    assert Indices([Step(i, v)]) == [i];
  }

  /** A matching registration whose handler lets the frame go on precedes the rest of the walk. */
  lemma ChainOrderContinue<H>(chain: seq<Registration<H>>, frame: seq<byte>, i: nat, rest: seq<Step>)
    requires i < |chain| && Matches(frame, chain[i].mask)
    requires ChainOrder(chain, frame, i + 1, rest)
    ensures ChainOrder(chain, frame, i, [Step(i, NotConsumed)] + rest)
  {
    var steps := [Step(i, NotConsumed)] + rest;
    assert steps[1..] == rest;
    assert Indices(steps) == [i] + Indices(rest);
    assert MatchingFrom(chain, frame, i) == [i] + MatchingFrom(chain, frame, i + 1);
    PrefixCons(i, Indices(rest), MatchingFrom(chain, frame, i + 1));
    assert Stopped(steps) <==> Stopped(rest);
  }

  lemma PrefixCons(x: nat, a: seq<nat>, b: seq<nat>)
    requires a <= b
    ensures [x] + a <= [x] + b
  {
    assert ([x] + b)[..|a| + 1] == [x] + a;
  }

  /** What a trace of that shape means: every step is a matching registration, the steps
      run in strictly increasing chain order, and no matching registration is skipped
      before the step that stopped the walk (or before the chain's end). */
  lemma {:induction false} ChainOrderMeaning<H>(chain: seq<Registration<H>>, frame: seq<byte>, from: nat, steps: seq<Step>)
    requires ChainOrder(chain, frame, from, steps)
    ensures forall k :: 0 <= k < |steps| ==>
              from <= steps[k].index < |chain| && Matches(frame, chain[steps[k].index].mask)
    ensures forall j, k :: 0 <= j < k < |steps| ==> steps[j].index < steps[k].index
    ensures forall j ::
              (from <= j < |chain| && Matches(frame, chain[j].mask)
               && (!Stopped(steps) || j <= steps[|steps| - 1].index)) ==> Ran(steps, j)
  {
    MatchingFromMeaning(chain, frame, from);
    var m := MatchingFrom(chain, frame, from);
    var ix := Indices(steps);
    forall k | 0 <= k < |steps| ensures steps[k].index == m[k] {
      assert ix[k] == m[k];
    }
    forall j | (from <= j < |chain| && Matches(frame, chain[j].mask)
              && (!Stopped(steps) || j <= steps[|steps| - 1].index))
      ensures Ran(steps, j)
    {
      var p :| 0 <= p < |m| && m[p] == j;
      if !Stopped(steps) {
        assert ix[p] == j;
      } else {
        assert p < |steps|;
        assert steps[p].index == j;
      }
    }
    forall k | 0 <= k < |steps|
      ensures from <= steps[k].index < |chain| && Matches(frame, chain[steps[k].index].mask)
    {
      assert steps[k].index == m[k];
    }
    forall j, k | 0 <= j < k < |steps|
      ensures steps[j].index < steps[k].index
    {
      assert steps[j].index == m[j] && steps[k].index == m[k];
    }
  }
}

=== FILE: common.dfy ===
/**
 Shared vocabulary of the model: an optional value, the byte type of the
 serial link, two-digit lower-case hexadecimal formatting (the `"%02x"`
 conversion used for diagnostics, fallback labels and raw-frame lines) and
 a substring test on strings.
 */
module Common {

  datatype Option<+T> = None | Some(value: T)

  /** Python's `s[i]`: a negative index counts from the end. */
  function PyIndex<T>(s: seq<T>, i: int): T
    requires -|s| <= i < |s|
  {
    if i >= 0 then s[i] else s[|s| + i]
  }

  /** One octet on the serial line. */
  type byte = x: int | 0 <= x < 256

  /** A lower-case hexadecimal digit: `0-9` or `a-f`. */
  predicate IsHexDigit(c: char) {
    '0' <= c <= '9' || 'a' <= c <= 'f'
  }

  /** The character for a nibble, lower case as `%x` writes it. */
  function HexDigit(n: int): (c: char)
    requires 0 <= n < 16
    ensures IsHexDigit(c)
  {
    if n < 10 then ('0' as int + n) as char else ('a' as int + n - 10) as char
  }

  /** Inverse of `HexDigit` on its image. */
  function ParseHexDigit(c: char): (r: Option<int>)
    ensures r.Some? ==> 0 <= r.value < 16 && HexDigit(r.value) == c
    ensures r.None? <==> !IsHexDigit(c)
  {
    if '0' <= c <= '9' then Some(c as int - '0' as int)
    else if 'a' <= c <= 'f' then Some(c as int - 'a' as int + 10)
    else None
  }

  /** `"%02x" % b`: exactly two lower-case hex digits, high nibble first. */
  function Hex2(b: byte): (s: string)
    ensures |s| == 2 && IsHexDigit(s[0]) && IsHexDigit(s[1])
  {
    [HexDigit(b / 16), HexDigit(b % 16)]
  }

  /** Reads back two hex digits as a byte. */
  function ParseHex2(s: string): (r: Option<byte>)
    ensures r.Some? ==> |s| == 2
  {
    if |s| != 2 then None
    else
      var hi, lo := ParseHexDigit(s[0]), ParseHexDigit(s[1]);
      if hi.Some? && lo.Some? then Some(hi.value * 16 + lo.value) else None
  }

  /** Parsing a digit gives back its nibble. */
  lemma HexDigitRoundTrip(n: int)
    requires 0 <= n < 16
    ensures ParseHexDigit(HexDigit(n)) == Some(n)
  {
  }

  /** Two-digit formatting loses nothing: the digits parse back as the byte. */
  lemma Hex2RoundTrip(b: byte)
    ensures ParseHex2(Hex2(b)) == Some(b)
  {
    HexDigitRoundTrip(b / 16);
    HexDigitRoundTrip(b % 16);
  }

  /** `" ".join(["%02x" % c for c in buf])`: the frame as space-separated hex pairs. */
  function HexLine(frame: seq<byte>): (s: string)
    ensures |s| == if |frame| == 0 then 0 else 3 * |frame| - 1
  {
    if |frame| == 0 then ""
    else if |frame| == 1 then Hex2(frame[0])
    else Hex2(frame[0]) + " " + HexLine(frame[1..])
  }

  /** Reads a line written by `HexLine` back into bytes. */
  function ParseHexLine(s: string): (r: Option<seq<byte>>)
    decreases |s|
  {
    if |s| == 0 then Some([])
    else if |s| < 2 then None
    else match ParseHex2(s[..2])
      case None => None
      case Some(b) =>
        if |s| == 2 then Some([b])
        else if s[2] != ' ' || |s| == 3 then None
        else match ParseHexLine(s[3..])
          case None => None
          case Some(rest) => Some([b] + rest)
  }

  /** A raw-frame line determines the frame: nothing is lost by the formatting. */
  lemma {:induction false} HexLineRoundTrip(frame: seq<byte>)
    ensures ParseHexLine(HexLine(frame)) == Some(frame)
    decreases |frame|
  {
    if |frame| == 0 {
    } else if |frame| == 1 {
      Hex2RoundTrip(frame[0]);
      assert HexLine(frame)[..2] == Hex2(frame[0]);
      assert [frame[0]] == frame;
    } else {
      var s := HexLine(frame);
      var tail := HexLine(frame[1..]);
      assert s == Hex2(frame[0]) + " " + tail;
      assert s[..2] == Hex2(frame[0]);
      assert s[3..] == tail;
      Hex2RoundTrip(frame[0]);
      HexLineRoundTrip(frame[1..]);
      assert [frame[0]] + frame[1..] == frame;
    }
  }

  /** Python's `p in s` for strings: `p` occurs as a contiguous substring of `s`. */
  predicate Contains(s: string, p: string)
    decreases |s|
  {
    p <= s || (|s| > 0 && Contains(s[1..], p))
  }

  /** A string contains whatever occurs at one of its positions. */
  lemma {:induction false} ContainsAt(s: string, p: string, i: nat)
    requires i <= |s| && p <= s[i..]
    ensures Contains(s, p)
    decreases i
  {
    if i > 0 {
      assert s[1..][i - 1..] == s[i..];
      ContainsAt(s[1..], p, i - 1);
    }
  }

  /** Every character of a substring occurs in the enclosing string. */
  lemma {:induction false} ContainsChars(s: string, p: string, c: char)
    requires Contains(s, p)
    requires c in p
    ensures c in s
    decreases |s|
  {
    if p <= s {
      var i :| 0 <= i < |p| && p[i] == c;
      assert s[i] == c;
    } else {
      ContainsChars(s[1..], p, c);
      var j :| 0 <= j < |s[1..]| && s[1..][j] == c;
      assert s[j + 1] == c;
    }
  }
}

=== FILE: engine.dfy ===
/**
 The Jablotron 6x protocol engine: its state, the handlers a registration can
 name, one handler invocation, the dispatch of a frame along the callback
 chain, and the read loop that assembles frames from the serial line.
 */
module Jablotron {
  import opened Common
  import opened Tables
  import opened Framing
  import opened Chain
  import opened Events
  import opened Keys
  import opened StatusDiffing

  /** The callbacks a registration can name: the two built-in decoders, the three helper
      callbacks, and the bridge's raw-frame publisher. */
  datatype Handler =
    | KeyDecoder
    | StatusDecoder
    | PrintBuffer
    | ConsumeEvent
    | RemoveDuplicities
    | RawPublisher

  type Registration = Chain.Registration<Handler>

  /** A function assigned to one of the engine's callback properties. */
  datatype Subscriber = Subscriber(name: string)

  /** The four callback properties; an unset one drops its events. */
  datatype Slots = Slots(
    keyPress: Option<Subscriber>,
    modeChange: Option<Subscriber>,
    ledChange: Option<Subscriber>,
    displayChange: Option<Subscriber>)

  const NoSlots: Slots := Slots(None, None, None, None)

  /** The callback properties by name. */
  datatype SlotName = OnKeyPress | OnModeChange | OnLedChange | OnDisplayChange

  function Slot(slots: Slots, name: SlotName): Option<Subscriber> {
    match name
    case OnKeyPress => slots.keyPress
    case OnModeChange => slots.modeChange
    case OnLedChange => slots.ledChange
    case OnDisplayChange => slots.displayChange
  }

  /** The property an event is delivered through. */
  function SlotOf(e: Event): SlotName {
    match e
    case KeyPressed(_) => OnKeyPress
    case ModeChanged(_) => OnModeChange
    case LedsChanged(_) => OnLedChange
    case DisplayChanged(_) => OnDisplayChange
  }

  /** What the engine's handlers do outside the engine: call a subscriber with an event,
      print a raw-frame line, or hand a raw-frame line to the bridge for publishing. */
  datatype Output =
    | Notified(to: Subscriber, event: Event)
    | Printed(line: string)
    | RawPublished(line: string)

  /** Engine state: the read buffer, the callback chain, the status memory, the last
      trailer byte seen by the duplicate suppressor, and the callback properties. */
  datatype Engine = Engine(
    buffer: seq<byte>,
    chain: seq<Registration>,
    status: Status,
    lastChecksum: byte,
    slots: Slots)

  /** Calls, in order, the subscriber of each event's property; events whose property
      is unset are dropped. */
  function Deliver(slots: Slots, events: seq<Event>): (out: seq<Output>)
    ensures |out| <= |events|
  {
    if |events| == 0 then []
    else
      var rest := Deliver(slots, events[1..]);
      match Slot(slots, SlotOf(events[0]))
      case Some(sub) => [Notified(sub, events[0])] + rest
      case None => rest
  }

  /** Every call goes to the subscriber of the event's property; with every property set
      each event is delivered once, in order; with none set nothing is. */
  lemma {:induction false} DeliverMeaning(slots: Slots, events: seq<Event>)
    ensures forall o :: o in Deliver(slots, events) ==>
              o.Notified? && o.event in events && Slot(slots, SlotOf(o.event)) == Some(o.to)
    ensures (forall e :: e in events ==> Slot(slots, SlotOf(e)).Some?) ==>
              |Deliver(slots, events)| == |events|
              && forall k :: 0 <= k < |events| ==> Deliver(slots, events)[k].event == events[k]
    ensures (forall e :: e in events ==> Slot(slots, SlotOf(e)).None?) ==> Deliver(slots, events) == []
  {
    if |events| > 0 {
      var rest := Deliver(slots, events[1..]);
      DeliverMeaning(slots, events[1..]);
      assert forall e :: e in events[1..] ==> e in events;
      match Slot(slots, SlotOf(events[0]))
      case Some(sub) =>
        var out := [Notified(sub, events[0])] + rest;
        assert forall k :: 1 <= k < |out| ==> out[k] == rest[k - 1];
      case None =>
    }
  }

  /** A single event reaches its property's subscriber exactly when that property is set,
      whatever the other properties hold. */
  lemma DeliverOne(slots: Slots, ev: Event)
    ensures Deliver(slots, [ev])
         == if Slot(slots, SlotOf(ev)).Some? then [Notified(Slot(slots, SlotOf(ev)).value, ev)] else []
  {
    assert [ev][1..] == [];
  }

  /** Events are delivered independently: the calls for a sequence of events are the calls
      for each part. */
  lemma {:induction false} DeliverSplit(slots: Slots, a: seq<Event>, b: seq<Event>)
    ensures Deliver(slots, a + b) == Deliver(slots, a) + Deliver(slots, b)
    decreases |a|
  {
    if |a| == 0 {
      assert a + b == b;
    } else {
      assert (a + b)[0] == a[0] && (a + b)[1..] == a[1..] + b;
      DeliverSplit(slots, a[1..], b);
    }
  }

  /** Replaces the subscriber of one callback property; nothing else changes. */
  function Subscribe(e: Engine, name: SlotName, sub: Option<Subscriber>): (r: Engine)
    ensures Slot(r.slots, name) == sub
    ensures forall other :: other != name ==> Slot(r.slots, other) == Slot(e.slots, other)
    ensures r.(slots := e.slots) == e
  {
    match name
    case OnKeyPress => e.(slots := e.slots.(keyPress := sub))
    case OnModeChange => e.(slots := e.slots.(modeChange := sub))
    case OnLedChange => e.(slots := e.slots.(ledChange := sub))
    case OnDisplayChange => e.(slots := e.slots.(displayChange := sub))
  }

  /** `register_callback`: appends to the chain and changes nothing else. */
  function RegisterCallback(e: Engine, h: Handler, mask: Mask): (r: Engine)
    ensures |r.chain| == |e.chain| + 1
    ensures r.chain[..|e.chain|] == e.chain
    ensures r.chain[|e.chain|] == Chain.Registration(h, mask)
    ensures r.(chain := e.chain) == e
  {
    e.(chain := Register(e.chain, h, mask))
  }

  /** Python's `buf[len(buf)-2]` on a non-empty frame: for a one-byte frame the index is
      -1, which Python reads as the last (only) byte. */
  function Checksum(frame: seq<byte>): (c: byte)
    requires |frame| > 0
    ensures c == PyIndex(frame, |frame| - 2)
  {
    if |frame| >= 2 then frame[|frame| - 2] else frame[0]
  }

  datatype Dedup = Dedup(last: byte, verdict: Verdict)

  /** `remove_duplicities`: consumes a frame whose second-to-last byte repeats the
      remembered one; otherwise remembers it and lets the frame through. An empty frame
      raises `IndexError`. */
  function Deduplicate(last: byte, frame: seq<byte>): (r: Dedup)
    ensures r.verdict == Raised <==> |frame| == 0
    ensures r.verdict == Consumed <==> |frame| > 0 && Checksum(frame) == last
    ensures |frame| > 0 ==> r.last == Checksum(frame)
    ensures |frame| == 0 ==> r.last == last
  {
    if |frame| == 0 then Dedup(last, Raised)
    else if last == Checksum(frame) then Dedup(last, Consumed)
    else Dedup(Checksum(frame), NotConsumed)
  }

  /** The duplicate suppressor consumes the second of two frames with the same trailer. */
  lemma RepeatIsSuppressed(last: byte, frame: seq<byte>, again: seq<byte>)
    requires |frame| > 0 && |again| > 0 && Checksum(again) == Checksum(frame)
    ensures Deduplicate(Deduplicate(last, frame).last, again).verdict == Consumed
  {
  }

  /** The remembered value starts at 0, so a first status frame whose trailer byte is 0x00
      is consumed although nothing preceded it. */
  lemma FirstZeroTrailerSuppressed()
    ensures Deduplicate(0, [0xE0, 0x40, 0x01, 0x59, 0x00, 0xFF]).verdict == Consumed
  {
  }

  /** Handlers that can consume a frame. */
  predicate MayConsume(h: Handler) {
    h == ConsumeEvent || h == RemoveDuplicities
  }

  /** Handlers that raise on this frame: the status decoder on a frame without a display
      byte, the duplicate suppressor on an empty frame. */
  predicate MayRaise(h: Handler, frame: seq<byte>) {
    (h == StatusDecoder && |frame| < 4) || (h == RemoveDuplicities && |frame| == 0)
  }

  datatype Invocation = Invocation(engine: Engine, out: seq<Output>, verdict: Verdict)

  /** One handler call. The key decoder, the status decoder, `print_buffer` and the raw
      publisher never consume; `consume_event` always does. */
  function Invoke(e: Engine, h: Handler, frame: seq<byte>): (r: Invocation)
    ensures r.engine.chain == e.chain && r.engine.buffer == e.buffer && r.engine.slots == e.slots
    ensures r.verdict == Consumed ==> MayConsume(h)
    ensures r.verdict == Raised ==> MayRaise(h, frame)
    ensures h == ConsumeEvent ==> r.verdict == Consumed
    ensures h != StatusDecoder ==> r.engine.status == e.status
    ensures h != RemoveDuplicities ==> r.engine.lastChecksum == e.lastChecksum
    ensures h == KeyDecoder ==> r.out == Deliver(e.slots, KeyEvents(frame)) && r.verdict == NotConsumed
    ensures h == StatusDecoder ==>
              var u := StatusUpdate(e.status, frame);
              && r.engine.status == u.status
              && r.out == Deliver(e.slots, RaisedEvents(u))
              && (r.verdict == Raised <==> u.raised)
    ensures h == PrintBuffer ==> r.out == [Printed(HexLine(frame))] && r.verdict == NotConsumed
    ensures h == ConsumeEvent ==> r.out == []
    ensures h == RemoveDuplicities ==>
              var d := Deduplicate(e.lastChecksum, frame);
              r.verdict == d.verdict && r.engine.lastChecksum == d.last && r.out == []
    ensures h == RawPublisher ==> r.out == [RawPublished(HexLine(frame))] && r.verdict == NotConsumed
  {
    match h
    case KeyDecoder => Invocation(e, Deliver(e.slots, KeyEvents(frame)), NotConsumed)
    case StatusDecoder =>
      var u := StatusUpdate(e.status, frame);
      Invocation(e.(status := u.status), Deliver(e.slots, RaisedEvents(u)), if u.raised then Raised else NotConsumed)
    case PrintBuffer => Invocation(e, [Printed(HexLine(frame))], NotConsumed)
    case ConsumeEvent => Invocation(e, [], Consumed)
    case RemoveDuplicities =>
      var d := Deduplicate(e.lastChecksum, frame);
      Invocation(e.(lastChecksum := d.last), [], d.verdict)
    case RawPublisher => Invocation(e, [RawPublished(HexLine(frame))], NotConsumed)
  }

  /** A dispatch's result: the engine after it, what the handlers did, and the trace. */
  datatype Dispatched = Dispatched(engine: Engine, out: seq<Output>, steps: seq<Step>)

  /** `_handle_event` from registration `i` on: runs every registration whose mask matches,
      in order, until one consumes the frame or raises. */
  function Walk(e: Engine, frame: seq<byte>, i: nat): (r: Dispatched)
    requires i <= |e.chain|
    ensures r.engine.chain == e.chain && r.engine.buffer == e.buffer && r.engine.slots == e.slots
    decreases |e.chain| - i
  {
    if i == |e.chain| then Dispatched(e, [], [])
    else if !Matches(frame, e.chain[i].mask) then Walk(e, frame, i + 1)
    else
      var call := Invoke(e, e.chain[i].handler, frame);
      if call.verdict != NotConsumed then Dispatched(call.engine, call.out, [Step(i, call.verdict)])
      else
        var rest := Walk(call.engine, frame, i + 1);
        Dispatched(rest.engine, call.out + rest.out, [Step(i, NotConsumed)] + rest.steps)
  }

  /** Only the handlers that can consume or raise ever stop a walk: a last step that consumed
      ran a handler that may consume, one that raised a handler that may raise. */
  ghost predicate Stops(chain: seq<Registration>, frame: seq<byte>, steps: seq<Step>) {
    Stopped(steps) ==>
      var last := steps[|steps| - 1];
      && last.index < |chain|
      && (last.verdict == Consumed ==> MayConsume(chain[last.index].handler))
      && (last.verdict == Raised ==> MayRaise(chain[last.index].handler, frame))
  }

  /** A walk's trace has the dispatch order: matching registrations in chain order, none
      skipped, the walk ending only at the chain's end or at a handler that consumes or raises. */
  lemma {:induction false} WalkOrder(e: Engine, frame: seq<byte>, i: nat)
    requires i <= |e.chain|
    ensures ChainOrder(e.chain, frame, i, Walk(e, frame, i).steps)
    decreases |e.chain| - i
  {
    if i == |e.chain| {
      ChainOrderEnd(e.chain, frame);
    } else if !Matches(frame, e.chain[i].mask) {
      WalkOrder(e, frame, i + 1);
      ChainOrderSkip(e.chain, frame, i, Walk(e, frame, i + 1).steps);
    } else {
      var call := Invoke(e, e.chain[i].handler, frame);
      if call.verdict != NotConsumed {
        ChainOrderStop(e.chain, frame, i, call.verdict);
      } else {
        WalkOrder(call.engine, frame, i + 1);
        ChainOrderContinue(e.chain, frame, i, Walk(call.engine, frame, i + 1).steps);
      }
    }
  }

  /** Only a handler that can consume or raise ends a walk early. */
  lemma {:induction false} WalkStops(e: Engine, frame: seq<byte>, i: nat)
    requires i <= |e.chain|
    ensures Stops(e.chain, frame, Walk(e, frame, i).steps)
    decreases |e.chain| - i
  {
    if i < |e.chain| {
      if !Matches(frame, e.chain[i].mask) {
        WalkStops(e, frame, i + 1);
      } else {
        var call := Invoke(e, e.chain[i].handler, frame);
        if call.verdict == NotConsumed {
          var rest := Walk(call.engine, frame, i + 1).steps;
          WalkStops(call.engine, frame, i + 1);
          var steps := [Step(i, NotConsumed)] + rest;
          assert Walk(e, frame, i).steps == steps;
          if |rest| > 0 {
            assert steps[|steps| - 1] == rest[|rest| - 1];
          }
        }
      }
    }
  }

  /** The verdict a step records is the one its handler returns on this frame:
      `consume_event` always consumes; a handler that can neither consume nor raise lets the
      frame go on; the status decoder raises exactly on a frame without a display byte, the
      duplicate suppressor exactly on an empty frame. */
  predicate VerdictFits(h: Handler, frame: seq<byte>, v: Verdict) {
    && (h == ConsumeEvent ==> v == Consumed)
    && (!MayConsume(h) && !MayRaise(h, frame) ==> v == NotConsumed)
    && (h == StatusDecoder ==> (v == Raised <==> |frame| < 4))
    && (h == RemoveDuplicities ==> (v == Raised <==> |frame| == 0))
  }

  /** The step ran a registration of the chain and recorded its handler's verdict. */
  predicate StepFits(chain: seq<Registration>, frame: seq<byte>, step: Step) {
    step.index < |chain| && VerdictFits(chain[step.index].handler, frame, step.verdict)
  }

  /** Every step of a walk records the verdict its registration's handler returns, the
      duplicate suppressor's consume-or-pass included. */
  lemma {:induction false} WalkVerdicts(e: Engine, frame: seq<byte>, i: nat)
    requires i <= |e.chain|
    ensures forall k :: 0 <= k < |Walk(e, frame, i).steps| ==> StepFits(e.chain, frame, Walk(e, frame, i).steps[k])
    ensures forall k :: 0 <= k < |Walk(e, frame, i).steps| ==> SuppressorFits(e.chain, frame, e.lastChecksum, Walk(e, frame, i).steps, k)
    decreases |e.chain| - i
  {
    WalkStepsFit(e, frame, i);
    WalkSuppressorVerdicts(e, frame, i);
  }

  /** Every step of a walk records the verdict `VerdictFits` allows for its handler. */
  lemma {:induction false} WalkStepsFit(e: Engine, frame: seq<byte>, i: nat)
    requires i <= |e.chain|
    ensures forall k :: 0 <= k < |Walk(e, frame, i).steps| ==> StepFits(e.chain, frame, Walk(e, frame, i).steps[k])
    decreases |e.chain| - i
  {
    if i < |e.chain| {
      if !Matches(frame, e.chain[i].mask) {
        WalkStepsFit(e, frame, i + 1);
        assert Walk(e, frame, i) == Walk(e, frame, i + 1);
      } else {
        var call := Invoke(e, e.chain[i].handler, frame);
        var steps := Walk(e, frame, i).steps;
        assert StepFits(e.chain, frame, steps[0]);
        if call.verdict == NotConsumed {
          var rest := Walk(call.engine, frame, i + 1).steps;
          WalkStepsFit(call.engine, frame, i + 1);
          assert steps == [Step(i, NotConsumed)] + rest;
          forall k | 1 <= k < |steps|
            ensures StepFits(e.chain, frame, steps[k])
          {
            assert steps[k] == rest[k - 1];
          }
        }
      }
    }
  }

  /** The duplicate suppressor's step on a non-empty frame consumes exactly when the frame's
      trailer repeats the one remembered before the walk, or when an earlier suppressor step
      of the same walk let the frame through and so remembered its trailer. */
  predicate SuppressorFits(chain: seq<Registration>, frame: seq<byte>, last: byte, steps: seq<Step>, k: nat)
    requires k < |steps|
  {
    steps[k].index < |chain| && chain[steps[k].index].handler == RemoveDuplicities && |frame| > 0 ==>
      (steps[k].verdict == Consumed <==> Checksum(frame) == last || HandlerRan(chain, steps[..k], RemoveDuplicities))
  }

  /** Every suppressor step of a walk records `remove_duplicities`' verdict against the
      trailer remembered at that point of the walk. */
  lemma {:induction false} WalkSuppressorVerdicts(e: Engine, frame: seq<byte>, i: nat)
    requires i <= |e.chain|
    ensures forall k :: 0 <= k < |Walk(e, frame, i).steps| ==> SuppressorFits(e.chain, frame, e.lastChecksum, Walk(e, frame, i).steps, k)
    decreases |e.chain| - i
  {
    if i < |e.chain| {
      if !Matches(frame, e.chain[i].mask) {
        WalkSuppressorVerdicts(e, frame, i + 1);
        assert Walk(e, frame, i) == Walk(e, frame, i + 1);
      } else {
        var h := e.chain[i].handler;
        var call := Invoke(e, h, frame);
        var steps := Walk(e, frame, i).steps;
        assert steps[0] == Step(i, call.verdict);
        if call.verdict == NotConsumed {
          var rest := Walk(call.engine, frame, i + 1).steps;
          WalkSuppressorVerdicts(call.engine, frame, i + 1);
          assert steps == [Step(i, NotConsumed)] + rest;
          forall k | 1 <= k < |steps|
            ensures SuppressorFits(e.chain, frame, e.lastChecksum, steps, k)
          {
            SuppressorFitsAfter(e.chain, frame, e.lastChecksum, call.engine.lastChecksum, i, rest, k);
          }
        }
      }
    }
  }

  /** A suppressor step after a first step that let the frame through: the memory it sees
      is the frame's trailer if that first step was a suppressor, and unchanged otherwise. */
  lemma SuppressorFitsAfter(chain: seq<Registration>, frame: seq<byte>, last: byte, next: byte, i: nat, rest: seq<Step>, k: nat)
    requires i < |chain| && 1 <= k <= |rest|
    requires chain[i].handler == RemoveDuplicities && |frame| > 0 ==> next == Checksum(frame)
    requires chain[i].handler != RemoveDuplicities ==> next == last
    requires SuppressorFits(chain, frame, next, rest, k - 1)
    ensures SuppressorFits(chain, frame, last, [Step(i, NotConsumed)] + rest, k)
  {
    var steps := [Step(i, NotConsumed)] + rest;
    assert steps[k] == rest[k - 1];
    assert steps[..k][0] == Step(i, NotConsumed);
    assert steps[..k][1..] == rest[..k - 1];
  }

  /** A matching `consume_event` registration is never passed over: the walk stops there or
      at an earlier registration. */
  lemma ConsumeEventStopsWalk(e: Engine, frame: seq<byte>, i: nat, j: nat)
    requires i <= j < |e.chain| && e.chain[j].handler == ConsumeEvent && Matches(frame, e.chain[j].mask)
    ensures Stopped(Walk(e, frame, i).steps)
    ensures var steps := Walk(e, frame, i).steps; steps[|steps| - 1].index <= j
  {
    var steps := Walk(e, frame, i).steps;
    WalkOrder(e, frame, i);
    ChainOrderMeaning(e.chain, frame, i, steps);
    forall k | 0 <= k < |steps| && steps[k].index == j
      ensures steps[k].verdict == Consumed
    {
      WalkVerdicts(e, frame, i);
      assert StepFits(e.chain, frame, steps[k]);
    }
    StopsAtConsumer(steps, j);
  }

  /** A trace in dispatch order, which must reach registration `j` unless it stopped
      earlier, and in which registration `j` always consumes, ends at `j` or before it. */
  lemma StopsAtConsumer(steps: seq<Step>, j: nat)
    requires forall k :: 0 <= k < |steps| - 1 ==> steps[k].verdict == NotConsumed
    requires forall a, b :: 0 <= a < b < |steps| ==> steps[a].index < steps[b].index
    requires !Stopped(steps) || j <= steps[|steps| - 1].index ==> Ran(steps, j)
    requires forall k :: 0 <= k < |steps| && steps[k].index == j ==> steps[k].verdict == Consumed
    ensures Stopped(steps) && steps[|steps| - 1].index <= j
  {
    if Ran(steps, j) {
      var k :| 0 <= k < |steps| && steps[k].index == j;
      assert k == |steps| - 1;
    }
  }

  /** Some step of the trace ran a registration of handler `h`. */
  predicate HandlerRan(chain: seq<Registration>, steps: seq<Step>, h: Handler) {
    |steps| > 0
    && ((steps[0].index < |chain| && chain[steps[0].index].handler == h) || HandlerRan(chain, steps[1..], h))
  }

  /** The status memory changes only when the status decoder ran, and the remembered
      trailer only when the duplicate suppressor ran. */
  lemma {:induction false} WalkKeepsState(e: Engine, frame: seq<byte>, i: nat)
    requires i <= |e.chain|
    ensures !HandlerRan(e.chain, Walk(e, frame, i).steps, StatusDecoder) ==> Walk(e, frame, i).engine.status == e.status
    ensures !HandlerRan(e.chain, Walk(e, frame, i).steps, RemoveDuplicities) ==> Walk(e, frame, i).engine.lastChecksum == e.lastChecksum
    decreases |e.chain| - i
  {
    if i < |e.chain| {
      if !Matches(frame, e.chain[i].mask) {
        WalkKeepsState(e, frame, i + 1);
      } else {
        var h := e.chain[i].handler;
        var call := Invoke(e, h, frame);
        if call.verdict == NotConsumed {
          var rest := Walk(call.engine, frame, i + 1);
          WalkKeepsState(call.engine, frame, i + 1);
          var steps := [Step(i, NotConsumed)] + rest.steps;
          assert Walk(e, frame, i).steps == steps;
          assert steps[1..] == rest.steps;
          assert HandlerRan(e.chain, steps, StatusDecoder) <==> h == StatusDecoder || HandlerRan(e.chain, rest.steps, StatusDecoder);
          assert HandlerRan(e.chain, steps, RemoveDuplicities) <==> h == RemoveDuplicities || HandlerRan(e.chain, rest.steps, RemoveDuplicities);
        } else {
          assert Walk(e, frame, i).steps == [Step(i, call.verdict)];
          assert [Step(i, call.verdict)][1..] == [];
        }
      }
    }
  }

  /** `_handle_event`: dispatch along the whole chain. */
  function Dispatch(e: Engine, frame: seq<byte>): (r: Dispatched)
    ensures r.engine.chain == e.chain && r.engine.buffer == e.buffer && r.engine.slots == e.slots
  {
    Walk(e, frame, 0)
  }

  /** Registrations none of which matches the frame are passed over without effect. */
  lemma {:induction false} WalkSkips(e: Engine, frame: seq<byte>, i: nat, j: nat)
    requires i <= j <= |e.chain|
    requires forall k :: i <= k < j ==> !Matches(frame, e.chain[k].mask)
    ensures Walk(e, frame, i) == Walk(e, frame, j)
    decreases j - i
  {
    if i < j {
      WalkSkips(e, frame, i + 1, j);
    }
  }

  /** The dispatch ended with a handler raising. */
  predicate RaisedIn(d: Dispatched) {
    Stopped(d.steps) && d.steps[|d.steps| - 1].verdict == Raised
  }

  /** The engine after one received byte, what its dispatch did, and whether a handler
      raised (the exception leaves `loop` and the frame stays in the buffer). */
  datatype Received = Received(engine: Engine, out: seq<Output>, frame: Option<seq<byte>>, raised: bool)

  /** One iteration of `loop`: append the byte; on the terminator dispatch the buffer and,
      unless a handler raised, empty it. */
  function Receive(e: Engine, b: byte): (r: Received)
    ensures r.frame == Feed(e.buffer, b).frame
    ensures !r.raised ==> r.engine.buffer == Feed(e.buffer, b).buffer
    ensures r.raised ==> r.frame.Some? && r.engine.buffer == r.frame.value
    ensures r.frame.None? ==> r.engine == e.(buffer := e.buffer + [b]) && r.out == []
    ensures r.engine.chain == e.chain && r.engine.slots == e.slots
    ensures r.frame.Some? ==>
              var d := Dispatch(e.(buffer := r.frame.value), r.frame.value);
              && r.out == d.out
              && r.engine.status == d.engine.status
              && r.engine.lastChecksum == d.engine.lastChecksum
              && (r.raised <==> RaisedIn(d))
  {
    var fed := Feed(e.buffer, b);
    match fed.frame
    case None => Received(e.(buffer := fed.buffer), [], None, false)
    case Some(frame) =>
      var d := Dispatch(e.(buffer := frame), frame);
      if RaisedIn(d) then
        Received(d.engine, d.out, Some(frame), true)
      else Received(d.engine.(buffer := []), d.out, Some(frame), false)
  }

  /** The result of draining bytes: the engine, the handlers' outputs, the frames
      dispatched, the bytes left unread, and whether a handler raised. */
  datatype Outcome = Outcome(engine: Engine, out: seq<Output>, frames: seq<seq<byte>>, unread: seq<byte>, raised: bool)

  /** Processes the bytes in order with `receive` until they run out or a handler raises. */
  function RunWith(receive: (Engine, byte) -> Received, e: Engine, bytes: seq<byte>): (r: Outcome)
    ensures !r.raised ==> r.unread == []
    ensures r.raised ==> |r.unread| < |bytes|
    ensures |r.unread| <= |bytes|
    decreases |bytes|
  {
    if |bytes| == 0 then Outcome(e, [], [], [], false)
    else
      var rcv := receive(e, bytes[0]);
      var frames := match rcv.frame case Some(f) => [f] case None => [];
      if rcv.raised then Outcome(rcv.engine, rcv.out, frames, bytes[1..], true)
      else
        var rest := RunWith(receive, rcv.engine, bytes[1..]);
        Outcome(rest.engine, rcv.out + rest.out, frames + rest.frames, rest.unread, rest.raised)
  }

  /** The bytes left unread are exactly the ones after the byte whose dispatch raised: the
      bytes before it are read without a raise, that byte raises on the engine they leave,
      and nothing is skipped or reordered. */
  lemma {:induction false} RunWithLeavesRest(receive: (Engine, byte) -> Received, e: Engine, bytes: seq<byte>)
    ensures var r := RunWith(receive, e, bytes);
            r.unread == bytes[|bytes| - |r.unread|..]
    ensures var r := RunWith(receive, e, bytes); var k := |bytes| - |r.unread| - 1;
            r.raised ==>
              && 0 <= k < |bytes|
              && !RunWith(receive, e, bytes[..k]).raised
              && receive(RunWith(receive, e, bytes[..k]).engine, bytes[k]).raised
    decreases |bytes|
  {
    if |bytes| > 0 && !receive(e, bytes[0]).raised {
      var rest := bytes[1..];
      var e1 := receive(e, bytes[0]).engine;
      RunWithLeavesRest(receive, e1, rest);
      var r := RunWith(receive, e, bytes);
      if r.raised {
        var k := |bytes| - |r.unread| - 1;
        assert bytes[..k][0] == bytes[0] && bytes[..k][1..] == rest[..k - 1];
        assert rest[k - 1] == bytes[k];
      }
    }
  }

  /** The read loop's inner part: every byte goes through `Receive`. */
  function Run(e: Engine, bytes: seq<byte>): (r: Outcome)
    ensures !r.raised ==> r.unread == []
    ensures r.raised ==> |r.unread| < |bytes|
    ensures |r.unread| <= |bytes|
  {
    RunWith(Receive, e, bytes)
  }

  /** The result of dispatching frames one after the other. */
  datatype Session = Session(engine: Engine, out: seq<Output>, raised: bool)

  /** Dispatches each frame in turn, with the frame as the buffer during its dispatch and
      the buffer emptied after it, until a handler raises. */
  function DispatchFrames(e: Engine, frames: seq<seq<byte>>): Session
    decreases |frames|
  {
    if |frames| == 0 then Session(e, [], false)
    else
      var d := Dispatch(e.(buffer := frames[0]), frames[0]);
      if RaisedIn(d) then Session(d.engine, d.out, true)
      else
        var rest := DispatchFrames(d.engine.(buffer := []), frames[1..]);
        Session(rest.engine, d.out + rest.out, rest.raised)
  }

  /** What the buffer holds before the first frame does not affect the dispatches. */
  lemma DispatchFramesIgnoresBuffer(e: Engine, x: seq<byte>, frames: seq<seq<byte>>)
    ensures DispatchFrames(e.(buffer := x), frames).out == DispatchFrames(e, frames).out
    ensures DispatchFrames(e.(buffer := x), frames).raised == DispatchFrames(e, frames).raised
    ensures DispatchFrames(e.(buffer := x), frames).engine.(buffer := [])
         == DispatchFrames(e, frames).engine.(buffer := [])
  {
    if |frames| > 0 {
      assert e.(buffer := x).(buffer := frames[0]) == e.(buffer := frames[0]);
    }
  }

  /** The read loop dispatches exactly the frames the frame assembler delimits, in order:
      its outputs, its final status and trailer memory, and whether it raised are those of
      dispatching the assembled frames one after the other. Unless a handler raises, it
      keeps the assembler's residual as its buffer. */
  lemma {:induction false} RunDispatchesAssembledFrames(e: Engine, bytes: seq<byte>)
    ensures var r := Run(e, bytes); var s := DispatchFrames(e, FeedAll(e.buffer, bytes).frames);
            && r.out == s.out
            && r.raised == s.raised
            && r.engine.(buffer := []) == s.engine.(buffer := [])
    ensures !Run(e, bytes).raised ==> Run(e, bytes).frames == FeedAll(e.buffer, bytes).frames
    ensures !Run(e, bytes).raised ==> Run(e, bytes).engine.buffer == FeedAll(e.buffer, bytes).residual
    decreases |bytes|
  {
    if |bytes| > 0 {
      var rcv := Receive(e, bytes[0]);
      var fed := Feed(e.buffer, bytes[0]);
      var rest := FeedAll(fed.buffer, bytes[1..]);
      assert FeedAll(e.buffer, bytes).frames == (match fed.frame case Some(f) => [f] + rest.frames case None => rest.frames);
      match fed.frame
      case None =>
        RunDispatchesAssembledFrames(rcv.engine, bytes[1..]);
        DispatchFramesIgnoresBuffer(e, fed.buffer, rest.frames);
        assert rcv.engine == e.(buffer := fed.buffer);
      case Some(f) =>
        var d := Dispatch(e.(buffer := f), f);
        if !RaisedIn(d) {
          RunDispatchesAssembledFrames(rcv.engine, bytes[1..]);
          assert rcv.engine == d.engine.(buffer := []);
          assert ([f] + rest.frames)[1..] == rest.frames;
        }
    }
  }

  /** Chunking does not matter, whatever a byte does to the engine: reading `xs` and then
      `ys` does what reading `xs + ys` does. */
  lemma {:induction false} RunWithChunked(receive: (Engine, byte) -> Received, e: Engine, xs: seq<byte>, ys: seq<byte>)
    requires !RunWith(receive, e, xs).raised
    ensures RunWith(receive, e, xs + ys)
         == var a := RunWith(receive, e, xs); var b := RunWith(receive, a.engine, ys);
            Outcome(b.engine, a.out + b.out, a.frames + b.frames, b.unread, b.raised)
    decreases |xs|
  {
    if |xs| == 0 {
      assert xs + ys == ys;
    } else {
      assert (xs + ys)[0] == xs[0] && (xs + ys)[1..] == xs[1..] + ys;
      var rcv := receive(e, xs[0]);
      RunWithChunked(receive, rcv.engine, xs[1..], ys);
      SeqAssoc(rcv.out, RunWith(receive, rcv.engine, xs[1..]).out,
               RunWith(receive, RunWith(receive, rcv.engine, xs[1..]).engine, ys).out);
      var frames: seq<seq<byte>> := match rcv.frame case Some(f) => [f] case None => [];
      SeqAssoc(frames, RunWith(receive, rcv.engine, xs[1..]).frames,
               RunWith(receive, RunWith(receive, rcv.engine, xs[1..]).engine, ys).frames);
    }
  }

  lemma SeqAssoc<T>(a: seq<T>, b: seq<T>, c: seq<T>)
    ensures a + (b + c) == (a + b) + c
  {
  }

  /** Chunking does not matter: reading `xs` and then `ys` does what reading `xs + ys` does,
      the partial frame carrying over in the buffer. */
  lemma RunChunked(e: Engine, xs: seq<byte>, ys: seq<byte>)
    requires !Run(e, xs).raised
    ensures Run(e, xs + ys)
         == var a := Run(e, xs); var b := Run(a.engine, ys);
            Outcome(b.engine, a.out + b.out, a.frames + b.frames, b.unread, b.raised)
  {
    RunWithChunked(Receive, e, xs, ys);
  }

  /** The serial port as `loop` sees it: open or not, and the bytes ready to be read. */
  datatype Port = Port(isOpen: bool, available: seq<byte>)

  /** `loop`: on an open port, reads until a read comes back empty; a closed port is not
      read at all. Returns the port with the bytes left unread. */
  function Loop(e: Engine, port: Port): (r: (Outcome, Port))
    ensures r.1.isOpen == port.isOpen
    ensures !port.isOpen || |port.available| == 0 ==> r.0 == Outcome(e, [], [], [], false) && r.1 == port
    ensures port.isOpen ==> r.0 == Run(e, port.available) && r.1.available == r.0.unread
  {
    if !port.isOpen then (Outcome(e, [], [], [], false), port)
    else
      var o := Run(e, port.available);
      (o, Port(port.isOpen, o.unread))
  }

  /** The registrations the constructor makes: the key decoder once per key code with that
      code as a one-byte mask, then the status decoder on the 0xE0 marker. */
  function InternalChain(): (chain: seq<Registration>)
    ensures |chain| == |KeyCodes| + 1
    ensures forall k :: 0 <= k < |KeyCodes| ==> chain[k] == Chain.Registration(KeyDecoder, Exactly(KeyCodes[k]))
    ensures chain[|KeyCodes|] == Chain.Registration(StatusDecoder, Exactly(0xE0))
  {
    seq(|KeyCodes|, k requires 0 <= k < |KeyCodes| => Chain.Registration(KeyDecoder, Exactly(KeyCodes[k])))
      + [Chain.Registration(StatusDecoder, Exactly(0xE0))]
  }

  /** Every key code has exactly one registration of the key decoder, and it matches
      exactly the frames starting with that code. */
  lemma KeyDecoderRegisteredOncePerCode(code: byte)
    requires code in KeyMapInversed
    ensures exists k :: 0 <= k < |InternalChain()| && InternalChain()[k] == Chain.Registration(KeyDecoder, Exactly(code))
    ensures forall k, k' ::
              (0 <= k < k' < |InternalChain()| && InternalChain()[k].handler == KeyDecoder
               && InternalChain()[k'].handler == KeyDecoder)
              ==> InternalChain()[k].mask != InternalChain()[k'].mask
  {
    KeyCodesAreTheKeyMapValues();
    var chain := InternalChain();
    var k :| 0 <= k < |KeyCodes| && KeyCodes[k] == code;
    assert chain[k] == Chain.Registration(KeyDecoder, Exactly(code));
    forall k, k' | 0 <= k < k' < |chain| && chain[k].handler == KeyDecoder && chain[k'].handler == KeyDecoder
      ensures chain[k].mask != chain[k'].mask
    {
      assert chain[k].mask[0] == Some(KeyCodes[k]);
      assert chain[k'].mask[0] == Some(KeyCodes[k']);
    }
  }

  /** `Jablotron6x(device)`: empty buffer, the internal registrations, status memory
      unset (LEDs 0), no subscribers. */
  function NewEngine(): (e: Engine)
    ensures e.buffer == [] && e.status == Initial && e.slots == NoSlots && e.lastChecksum == 0
    ensures e.chain == InternalChain()
  {
    Engine([], InternalChain(), Initial, 0, NoSlots)
  }

  /** On the internal chain, `87 FF` matches only the registration of code `87`, at 7. */
  lemma KeyFrameMatchesOnlyItsCode(e: Engine)
    requires e.chain == InternalChain()
    ensures Walk(e, [0x87, 0xFF], 0) == Walk(e, [0x87, 0xFF], 7)
    ensures Walk(e, [0x87, 0xFF], 8) == Dispatched(e, [], [])
    ensures e.chain[7] == Chain.Registration(KeyDecoder, Exactly(0x87))
  {
    var frame: seq<byte> := [0x87, 0xFF];
    forall k | 0 <= k < 7 ensures !Matches(frame, e.chain[k].mask) {
      assert e.chain[k].mask == Exactly(KeyCodes[k]);
    }
    forall k | 8 <= k < 13 ensures !Matches(frame, e.chain[k].mask) {
      if k < 12 {
        assert e.chain[k].mask == Exactly(KeyCodes[k]);
      } else {
        assert e.chain[k].mask == Exactly(0xE0);
      }
    }
    WalkSkips(e, frame, 0, 7);
    WalkSkips(e, frame, 8, 13);
  }

  /** The key decoder at position 7 turns `87 FF` into a key press `7` and lets it go on. */
  lemma KeyDecoderStep(e: Engine)
    requires e.chain == InternalChain()
    ensures Walk(e, [0x87, 0xFF], 7) == Dispatched(e, Deliver(e.slots, [KeyPressed('7')]), [Step(7, NotConsumed)])
  {
    var frame: seq<byte> := [0x87, 0xFF];
    KeyFrameMatchesOnlyItsCode(e);
    KeyFrameExample();
    assert Invoke(e, KeyDecoder, frame) == Invocation(e, Deliver(e.slots, KeyEvents(frame)), NotConsumed);
  }

  /** `87 FF` on a fresh engine with a key subscriber: one key press, `7`. */
  lemma KeyFrameDispatch(e: Engine)
    requires e.chain == InternalChain()
    ensures Dispatch(e, [0x87, 0xFF]).out == Deliver(e.slots, [KeyPressed('7')])
    ensures Dispatch(e, [0x87, 0xFF]).steps == [Step(7, NotConsumed)]
  {
    KeyFrameMatchesOnlyItsCode(e);
    KeyDecoderStep(e);
  }

  lemma KeyFrameScenario(sub: Subscriber)
    ensures var e := Subscribe(NewEngine(), OnKeyPress, Some(sub));
            Run(e, [0x87, 0xFF]).out == [Notified(sub, KeyPressed('7'))]
  {
    var e := Subscribe(NewEngine(), OnKeyPress, Some(sub));
    var frame: seq<byte> := [0x87, 0xFF];
    var e0 := e.(buffer := [0x87]);
    KeyFrameDispatch(e0.(buffer := frame));
    var out := [Notified(sub, KeyPressed('7'))];
    assert Deliver(e.slots, [KeyPressed('7')]) == out;
    assert Receive(e, 0x87) == Received(e0, [], None, false);
    assert [0x87 as byte] + [0xFF as byte] == frame;
    assert Feed([0x87], 0xFF) == Fed([], Some(frame));
    assert Receive(e0, 0xFF).out == out;
    assert [0x87 as byte, 0xFF][1..] == [0xFF];
  }

  /** With the suppressor registered before the status decoder on the same mask, a repeated
      status frame is consumed by the suppressor and never reaches the decoder. */
  lemma SuppressorBeforeDecoderScenario(frame: seq<byte>)
    requires |frame| >= 4 && frame[0] == 0xE0
    ensures
      var e := Engine([], [Chain.Registration(RemoveDuplicities, Exactly(0xE0)),
                           Chain.Registration(StatusDecoder, Exactly(0xE0))], Initial, 0, NoSlots);
      var first := Dispatch(e, frame);
      var second := Dispatch(first.engine, frame);
      second.steps == [Step(0, Consumed)]
  {
    var e := Engine([], [Chain.Registration(RemoveDuplicities, Exactly(0xE0)),
                         Chain.Registration(StatusDecoder, Exactly(0xE0))], Initial, 0, NoSlots);
    assert Matches(frame, Exactly(0xE0));
    var d := Deduplicate(0, frame);
    var e1 := e.(lastChecksum := d.last);
    assert Invoke(e, RemoveDuplicities, frame) == Invocation(e1, [], d.verdict);
    if d.verdict == NotConsumed {
      var u := StatusUpdate(e1.status, frame);
      assert Invoke(e1, StatusDecoder, frame) == Invocation(e1.(status := u.status), Deliver(e1.slots, RaisedEvents(u)), NotConsumed);
      assert Walk(e1, frame, 1).engine.lastChecksum == d.last;
    }
    var first := Dispatch(e, frame);
    assert first.engine.lastChecksum == Checksum(frame);
    assert first.engine.chain == e.chain;
    assert Invoke(first.engine, RemoveDuplicities, frame).verdict == Consumed;
  }
}

=== FILE: framing.dfy ===
/**
 The frame assembler of the engine's read loop: bytes accumulate in a buffer,
 and the terminator byte 0xFF closes a frame made of the whole buffer,
 terminator included, after which the buffer starts empty again. No length is
 checked: a lone terminator is a one-byte frame.
 */
module Framing {
  import opened Common

  const Terminator: byte := 0xFF

  /** A buffer still waiting for its terminator. */
  predicate Pending(buffer: seq<byte>) {
    Terminator !in buffer
  }

  /** A completed frame: terminated by 0xFF, with no earlier 0xFF. */
  predicate IsFrame(frame: seq<byte>) {
    |frame| > 0 && frame[|frame| - 1] == Terminator && Pending(frame[..|frame| - 1])
  }

  /** The buffer after one byte, and the frame that byte completed, if any. */
  datatype Fed = Fed(buffer: seq<byte>, frame: Option<seq<byte>>)

  /** Appends one byte; the terminator hands over the whole buffer and empties it. */
  function Feed(buffer: seq<byte>, b: byte): (r: Fed)
    ensures b != Terminator ==> r.frame.None? && r.buffer == buffer + [b]
    ensures b == Terminator ==> r.frame == Some(buffer + [b]) && r.buffer == []
  {
    var grown := buffer + [b];
    if b == Terminator then Fed([], Some(grown)) else Fed(grown, None)
  }

  /** A pending buffer stays pending, and the frame it completes is well formed. */
  lemma FeedKeepsPending(buffer: seq<byte>, b: byte)
    requires Pending(buffer)
    ensures Pending(Feed(buffer, b).buffer)
    ensures Feed(buffer, b).frame.Some? ==> IsFrame(Feed(buffer, b).frame.value)
  {
    var grown := buffer + [b];
    assert grown[..|grown| - 1] == buffer;
  }

  /** Completed frames, in order, and the bytes still buffered. */
  datatype Framed = Framed(frames: seq<seq<byte>>, residual: seq<byte>)

  /** Feeds a block of bytes one at a time. */
  function FeedAll(buffer: seq<byte>, bytes: seq<byte>): (r: Framed)
    ensures |r.frames| == multiset(bytes)[Terminator]
    decreases |bytes|
  {
    assert bytes != [] ==> bytes == [bytes[0]] + bytes[1..];
    if |bytes| == 0 then Framed([], buffer)
    else
      var fed := Feed(buffer, bytes[0]);
      var rest := FeedAll(fed.buffer, bytes[1..]);
      match fed.frame
      case Some(frame) => Framed([frame] + rest.frames, rest.residual)
      case None => rest
  }

  function Concat(frames: seq<seq<byte>>): seq<byte> {
    if |frames| == 0 then [] else frames[0] + Concat(frames[1..])
  }

  lemma {:induction false} ConcatAppend(a: seq<seq<byte>>, b: seq<seq<byte>>)
    ensures Concat(a + b) == Concat(a) + Concat(b)
    decreases |a|
  {
    if |a| == 0 {
      assert a + b == b;
    } else {
      assert (a + b)[1..] == a[1..] + b;
      ConcatAppend(a[1..], b);
    }
  }

  /** No byte is lost, duplicated or reordered: the frames followed by the residual
      buffer spell out the old buffer followed by the input. */
  lemma {:induction false} FeedAllPreservesBytes(buffer: seq<byte>, bytes: seq<byte>)
    ensures Concat(FeedAll(buffer, bytes).frames) + FeedAll(buffer, bytes).residual == buffer + bytes
    decreases |bytes|
  {
    if |bytes| > 0 {
      var b, tail := bytes[0], bytes[1..];
      var grown := buffer + [b];
      assert buffer + bytes == grown + tail by {
        assert bytes == [b] + tail;
      }
      var fed := Feed(buffer, b);
      var rest := FeedAll(fed.buffer, tail);
      FeedAllPreservesBytes(fed.buffer, tail);
      if b == Terminator {
        assert FeedAll(buffer, bytes) == Framed([grown] + rest.frames, rest.residual);
        assert [] + tail == tail;
        PrependFrame(grown, rest.frames, rest.residual, tail);
      } else {
        assert FeedAll(buffer, bytes) == rest;
      }
    }
  }

  lemma PrependFrame(frame: seq<byte>, frames: seq<seq<byte>>, residual: seq<byte>, tail: seq<byte>)
    requires Concat(frames) + residual == tail
    ensures Concat([frame] + frames) + residual == frame + tail
  {
    assert ([frame] + frames)[1..] == frames;
    assert Concat([frame] + frames) == frame + Concat(frames);
  }

  /** Every dispatched frame is well formed and the residual never holds a terminator. */
  lemma {:induction false} FeedAllFramesWellFormed(buffer: seq<byte>, bytes: seq<byte>)
    requires Pending(buffer)
    ensures forall i :: 0 <= i < |FeedAll(buffer, bytes).frames| ==> IsFrame(FeedAll(buffer, bytes).frames[i])
    ensures Pending(FeedAll(buffer, bytes).residual)
    decreases |bytes|
  {
    if |bytes| > 0 {
      var fed := Feed(buffer, bytes[0]);
      FeedKeepsPending(buffer, bytes[0]);
      FeedAllFramesWellFormed(fed.buffer, bytes[1..]);
    }
  }

  /** Chunking does not matter: feeding `xs` and then `ys` gives the same frames and the
      same residual as feeding `xs + ys` in one block. */
  lemma {:induction false} FeedAllChunked(buffer: seq<byte>, xs: seq<byte>, ys: seq<byte>)
    ensures FeedAll(buffer, xs + ys)
         == Framed(FeedAll(buffer, xs).frames + FeedAll(FeedAll(buffer, xs).residual, ys).frames,
                   FeedAll(FeedAll(buffer, xs).residual, ys).residual)
    decreases |xs|
  {
    if |xs| == 0 {
      assert xs + ys == ys;
    } else {
      var fed := Feed(buffer, xs[0]);
      assert (xs + ys)[0] == xs[0];
      assert (xs + ys)[1..] == xs[1..] + ys;
      FeedAllChunked(fed.buffer, xs[1..], ys);
      if fed.frame.Some? {
        var a := FeedAll(fed.buffer, xs[1..]);
        var b := FeedAll(a.residual, ys);
        assert [fed.frame.value] + (a.frames + b.frames) == ([fed.frame.value] + a.frames) + b.frames;
      }
    }
  }

  /** A lone terminator on an empty buffer is a frame of length one. */
  lemma LoneTerminatorIsFrame()
    ensures FeedAll([], [Terminator]) == Framed([[Terminator]], [])
    ensures IsFrame([Terminator])
  {
    assert [] + [Terminator] == [Terminator];
    assert Feed([], Terminator) == Fed([], Some([Terminator]));
    assert [Terminator][1..] == [];
  }
}

=== FILE: keys.dfy ===
/**
 The events the engine raises towards its subscribers.
 */
module Events {

  /** One entry of an LED-changed event: an indicator and whether it is now lit. */
  datatype LedChange = LedChange(name: string, on: bool)

  datatype Event =
    | KeyPressed(key: char)
    | ModeChanged(mode: string)
    | LedsChanged(delta: seq<LedChange>)
    | DisplayChanged(text: string)
}

/**
 Keypad keys in both directions: the key-press decoder that turns key codes
 seen in a frame into keypad characters, and `send_keys`, which turns a string
 of keypad characters into the bytes written to the serial line.
 */
module Keys {
  import opened Common
  import opened Tables
  import opened Events

  /** The codes of a string of valid keys, one byte per key, in order. */
  function EncodeKeys(keys: string): (bytes: seq<byte>)
    requires forall i :: 0 <= i < |keys| ==> keys[i] in KeyMap
    ensures |bytes| == |keys|
    ensures forall i :: 0 <= i < |keys| ==> bytes[i] == KeyMap[keys[i]]
  {
    if |keys| == 0 then [] else [KeyMap[keys[0]]] + EncodeKeys(keys[1..])
  }

  /** The frame's bytes that are key codes, in frame order. */
  function KeyCodesIn(frame: seq<byte>): seq<byte> {
    if |frame| == 0 then []
    else (if frame[0] in KeyMapInversed then [frame[0]] else []) + KeyCodesIn(frame[1..])
  }

  /** The key-press decoder's walk over the frame: one key per byte found in the inverse
      key map, unknown bytes skipped. Re-encoding the keys gives back exactly the frame's
      key-code bytes. */
  function DecodeKeys(frame: seq<byte>): (keys: string)
    ensures |keys| <= |frame|
    ensures forall i :: 0 <= i < |keys| ==> keys[i] in KeyMap
    ensures EncodeKeys(keys) == KeyCodesIn(frame)
  {
    if |frame| == 0 then ""
    else
      var rest := DecodeKeys(frame[1..]);
      if frame[0] in KeyMapInversed then
        KeyMapsAreInverse();
        var keys := [KeyMapInversed[frame[0]]] + rest;
        assert keys[1..] == rest;
        keys
      else rest
  }

  /** The events of one key-handler invocation: one key press per decoded key. */
  function KeyEvents(frame: seq<byte>): (events: seq<Event>)
    ensures |events| == |DecodeKeys(frame)|
    ensures forall i :: 0 <= i < |events| ==> events[i] == KeyPressed(DecodeKeys(frame)[i])
  {
    var keys := DecodeKeys(frame);
    seq(|keys|, i requires 0 <= i < |keys| => KeyPressed(keys[i]))
  }

  /** How many leading characters of `keys` are keypad keys: all of them, or up to the
      first character outside the keypad alphabet. */
  function ValidPrefixLength(keys: string): (n: nat)
    ensures n <= |keys|
    ensures forall j :: 0 <= j < n ==> keys[j] in KeyMap
    ensures n < |keys| ==> keys[n] !in KeyMap
  {
    if |keys| == 0 || keys[0] !in KeyMap then 0
    else 1 + ValidPrefixLength(keys[1..])
  }

  /** What `send_keys` leaves behind: the bytes written, and the `ValueError` message if
      it raised. */
  datatype SendResult = SendResult(written: seq<byte>, error: Option<string>)

  /** `send_keys`: writes the code of every key in order; at the first character outside
      `0-9 N F` it raises, after the codes of the keys before it were already written. */
  function SendKeys(keys: string): (r: SendResult)
    ensures r.error.None? <==> forall i :: 0 <= i < |keys| ==> keys[i] in KeyMap
    ensures r.error.None? ==> r.written == EncodeKeys(keys)
    ensures r.error.Some? ==> r.error.value == "Invalid Keys: " + keys
    ensures r.written == EncodeKeys(keys[..ValidPrefixLength(keys)])
  {
    var n := ValidPrefixLength(keys);
    var written := EncodeKeys(keys[..n]);
    if n == |keys| then
      assert keys[..n] == keys;
      SendResult(written, None)
    else SendResult(written, Some("Invalid Keys: " + keys))
  }

  /** The key decoder reads back what `send_keys` wrote: exactly the valid prefix. */
  lemma {:induction false} DecodeEncodedKeys(keys: string)
    requires forall i :: 0 <= i < |keys| ==> keys[i] in KeyMap
    ensures DecodeKeys(EncodeKeys(keys)) == keys
    decreases |keys|
  {
    if |keys| > 0 {
      var bytes := EncodeKeys(keys);
      assert bytes[1..] == EncodeKeys(keys[1..]);
      DecodeEncodedKeys(keys[1..]);
      KeyMapsAreInverse();
      assert [keys[0]] + keys[1..] == keys;
    }
  }

  lemma DecodeSentKeys(keys: string)
    ensures DecodeKeys(SendKeys(keys).written) == keys[..ValidPrefixLength(keys)]
  {
    DecodeEncodedKeys(keys[..ValidPrefixLength(keys)]);
  }

  /** `F06060` is written as `8F 80 86 80 86 80`. */
  lemma SendKeysExample()
    ensures SendKeys("F06060") == SendResult([0x8F, 0x80, 0x86, 0x80, 0x86, 0x80], None)
  {
    var keys := "F06060";
    assert keys[0] == 'F' && keys[1] == '0' && keys[2] == '6' && keys[3] == '0' && keys[4] == '6' && keys[5] == '0';
    assert ValidPrefixLength(keys) == 6;
    assert keys[..6] == keys;
    assert EncodeKeys(keys) == [0x8F, 0x80, 0x86, 0x80, 0x86, 0x80];
  }

  /** `X` raises before anything is written. */
  lemma InvalidKeyX()
    ensures SendKeys("X") == SendResult([], Some("Invalid Keys: X"))
  {
    assert ValidPrefixLength("X") == 0;
    assert "Invalid Keys: " + "X" == "Invalid Keys: X";
    assert "X"[..0] == "";
  }

  /** `12X3` writes the codes of `1` and `2`, then raises. */
  lemma InvalidKeyAfterPrefix()
    ensures SendKeys("12X3").written == [0x81, 0x82]
    ensures SendKeys("12X3").error.Some?
  {
    assert ValidPrefixLength("12X3") == 2 by {
      assert "12X3"[1..] == "2X3";
      assert "2X3"[1..] == "X3";
    }
    assert "12X3"[..2] == "12";
    assert EncodeKeys("12") == [0x81, 0x82];
  }

  /** A `87 FF` frame carries one key press, `7`; the terminator is not a key. */
  lemma KeyFrameExample()
    ensures KeyEvents([0x87, 0xFF]) == [KeyPressed('7')]
  {
    assert DecodeKeys([0xFF]) == "" by {
      assert [0xFF as byte][1..] == [];
    }
    assert [0x87 as byte, 0xFF][1..] == [0xFF];
  }
}

=== FILE: status.dfy ===
/**
 The status decoder's memory and its diffing. A status frame is
 `E0 <mode> <leds> <display> ...`; each of the three bytes is compared with
 the value remembered from the previous status frame, and only a byte that
 differs updates the memory and raises its event. The three checks are
 independent and run in the order mode, LEDs, display.
 */
module StatusDiffing {
  import opened Common
  import opened Tables
  import opened Events

  /** The remembered mode, LED mask and display code; mode and display start unset. */
  datatype Status = Status(mode: Option<byte>, leds: byte, display: Option<byte>)

  const Initial: Status := Status(None, 0x00, None)

  /** The LED's bit differs between the previous and the new LED byte. */
  predicate Flipped(led: Led, prev: byte, next: byte) {
    BitAnd(prev, led.bit) != BitAnd(next, led.bit)
  }

  /** The LED's entry in a delta: its name and whether its bit is set in the new byte. */
  function Now(led: Led, next: byte): LedChange {
    LedChange(led.name, BitAnd(next, led.bit) != 0)
  }

  lemma LedNamesDistinct()
    ensures forall j, k :: 0 <= j < k < |LedMap| ==> LedMap[j].name != LedMap[k].name
  {
  }

  /** The LED delta over the table entries from position `i` on. */
  function LedDeltaFrom(prev: byte, next: byte, i: nat): (delta: seq<LedChange>)
    requires i <= |LedMap|
    ensures |delta| <= |LedMap| - i
    decreases |LedMap| - i
  {
    if i == |LedMap| then []
    else if Flipped(LedMap[i], prev, next) then [Now(LedMap[i], next)] + LedDeltaFrom(prev, next, i + 1)
    else LedDeltaFrom(prev, next, i + 1)
  }

  /** The LED delta of a status frame, in table order. */
  function LedDelta(prev: byte, next: byte): (delta: seq<LedChange>)
    ensures |delta| <= |LedMap|
    ensures forall j, k :: 0 <= j < k < |delta| ==> delta[j].name != delta[k].name
  {
    LedDeltaFromNames(prev, next, 0);
    LedDeltaFrom(prev, next, 0)
  }

  /** The entries from position `i` on are exactly the table LEDs from there whose bit
      flipped, each with its new state. */
  lemma {:induction false} LedDeltaFromMembers(prev: byte, next: byte, i: nat)
    requires i <= |LedMap|
    ensures forall c :: c in LedDeltaFrom(prev, next, i) <==>
      exists k :: i <= k < |LedMap| && Flipped(LedMap[k], prev, next) && c == Now(LedMap[k], next)
    decreases |LedMap| - i
  {
    if i < |LedMap| {
      LedDeltaFromMembers(prev, next, i + 1);
    }
  }

  /** Every entry from position `i` on names a table LED from there, each a different one. */
  lemma {:induction false} LedDeltaFromNames(prev: byte, next: byte, i: nat)
    requires i <= |LedMap|
    ensures forall c :: c in LedDeltaFrom(prev, next, i) ==> exists k :: i <= k < |LedMap| && c.name == LedMap[k].name
    ensures forall j, k :: 0 <= j < k < |LedDeltaFrom(prev, next, i)| ==>
              LedDeltaFrom(prev, next, i)[j].name != LedDeltaFrom(prev, next, i)[k].name
    decreases |LedMap| - i
  {
    if i < |LedMap| {
      LedDeltaFromNames(prev, next, i + 1);
      var rest := LedDeltaFrom(prev, next, i + 1);
      if Flipped(LedMap[i], prev, next) {
        LedNamesDistinct();
        var delta := [Now(LedMap[i], next)] + rest;
        assert forall k :: 0 < k < |delta| ==> delta[k] == rest[k - 1];
        forall k | 0 < k < |delta| ensures delta[0].name != delta[k].name {
          assert delta[k] in rest;
        }
      }
    }
  }

  /** The LED delta of a status frame: exactly the named LEDs whose bit differs between
      the previous and the new LED byte, each with whether it is now lit, every name at
      most once. */
  lemma LedDeltaMeaning(prev: byte, next: byte)
    ensures forall c :: c in LedDelta(prev, next) <==>
      exists k :: 0 <= k < |LedMap| && Flipped(LedMap[k], prev, next) && c == Now(LedMap[k], next)
    ensures forall j, k :: 0 <= j < k < |LedDelta(prev, next)| ==> LedDelta(prev, next)[j].name != LedDelta(prev, next)[k].name
  {
    LedDeltaFromMembers(prev, next, 0);
    LedDeltaFromNames(prev, next, 0);
  }

  /** The memory after one check and the payload of the event it raised, if any. */
  datatype Update<T> = Update(status: Status, change: Option<T>)

  function ModeStep(s: Status, b: byte): Update<string> {
    if Some(b) != s.mode then Update(s.(mode := Some(b)), Some(ModeLabel(b)))
    else Update(s, None)
  }

  function LedStep(s: Status, b: byte): Update<seq<LedChange>> {
    if b != s.leds then Update(s.(leds := b), Some(LedDelta(s.leds, b)))
    else Update(s, None)
  }

  function DisplayStep(s: Status, b: byte): Update<string> {
    if Some(b) != s.display then Update(s.(display := Some(b)), Some(DisplayLabel(b)))
    else Update(s, None)
  }

  /** The memory after a status frame, the event each check raised (if any), and whether
      the handler raised `IndexError` because the frame ended before the display byte. */
  datatype StatusResult = StatusResult(
    status: Status,
    modeChange: Option<string>,
    ledChange: Option<seq<LedChange>>,
    displayChange: Option<string>,
    raised: bool)

  /** The events a status frame raises, in the order the checks run: mode, LEDs, display. */
  function RaisedEvents(r: StatusResult): seq<Event> {
    (match r.modeChange case Some(m) => [ModeChanged(m)] case None => [])
    + (match r.ledChange case Some(d) => [LedsChanged(d)] case None => [])
    + (match r.displayChange case Some(t) => [DisplayChanged(t)] case None => [])
  }

  /** `_handle_status_update`. Each check compares its byte with the memory and, only when
      they differ, stores it and raises its event; a frame too short for a byte raises
      `IndexError` at that check, after the earlier checks took effect. */
  function StatusUpdate(s: Status, frame: seq<byte>): (r: StatusResult)
    ensures r.raised <==> |frame| < 4
    ensures r.status.mode == (if |frame| >= 2 then Some(frame[1]) else s.mode)
    ensures r.status.leds == (if |frame| >= 3 then frame[2] else s.leds)
    ensures r.status.display == (if |frame| >= 4 then Some(frame[3]) else s.display)
    ensures r.modeChange.Some? <==> |frame| >= 2 && Some(frame[1]) != s.mode
    ensures r.ledChange.Some? <==> |frame| >= 3 && frame[2] != s.leds
    ensures r.displayChange.Some? <==> |frame| >= 4 && Some(frame[3]) != s.display
    ensures r.modeChange.Some? ==> r.modeChange.value == ModeLabel(frame[1])
    ensures r.ledChange.Some? ==> r.ledChange.value == LedDelta(s.leds, frame[2])
    ensures r.displayChange.Some? ==> r.displayChange.value == DisplayLabel(frame[3])
  {
    if |frame| < 2 then StatusResult(s, None, None, None, true)
    else
      var m := ModeStep(s, frame[1]);
      if |frame| < 3 then StatusResult(m.status, m.change, None, None, true)
      else
        var l := LedStep(m.status, frame[2]);
        if |frame| < 4 then StatusResult(l.status, m.change, l.change, None, true)
        else
          var d := DisplayStep(l.status, frame[3]);
          StatusResult(d.status, m.change, l.change, d.change, false)
  }

  /** Status diffing is idempotent: the same status frame a second time raises nothing and
      leaves the memory as it was. */
  lemma StatusIdempotent(s: Status, frame: seq<byte>)
    ensures RaisedEvents(StatusUpdate(StatusUpdate(s, frame).status, frame)) == []
    ensures StatusUpdate(StatusUpdate(s, frame).status, frame).status == StatusUpdate(s, frame).status
  {
  }

  lemma {:induction false} NoFlipNoDelta(prev: byte, next: byte, i: nat)
    requires i <= |LedMap|
    requires forall k :: i <= k < |LedMap| ==> !Flipped(LedMap[k], prev, next)
    ensures LedDeltaFrom(prev, next, i) == []
    decreases |LedMap| - i
  {
    if i < |LedMap| {
      NoFlipNoDelta(prev, next, i + 1);
    }
  }

  lemma BitsAgreeUnderSubMask(x: bv8, y: bv8, m: bv8)
    requires m & 0x77 == m
    requires x & 0x77 == y & 0x77
    ensures x & m == y & m
  {
    assert x & m == (x & 0x77) & m;
    assert y & m == (y & 0x77) & m;
  }

  /** Bytes that agree on the named bits agree on each named bit. */
  lemma SubMaskAgrees(x: byte, y: byte, bit: byte)
    requires BitAnd(bit, 0x77) == bit
    requires BitAnd(x, 0x77) == BitAnd(y, 0x77)
    ensures BitAnd(x, bit) == BitAnd(y, bit)
  {
    assert (bit as bv8) & 0x77 == bit as bv8;
    assert (x as bv8) & 0x77 == (y as bv8) & 0x77;
    BitsAgreeUnderSubMask(x as bv8, y as bv8, bit as bv8);
  }

  /** A change confined to the unnamed bits 0x08 and 0x80 gives an empty delta. */
  lemma UnnamedBitsGiveEmptyDelta(prev: byte, next: byte)
    requires BitAnd(prev, 0x77) == BitAnd(next, 0x77)
    ensures LedDelta(prev, next) == []
  {
    forall k | 0 <= k < |LedMap|
      ensures !Flipped(LedMap[k], prev, next)
    {
      NamedBitKept(prev, next, k);
    }
    NoFlipNoDelta(prev, next, 0);
  }

  /** Every named LED bit lies under the mask 0x77, so it agrees when the masked bytes do. */
  lemma NamedBitKept(prev: byte, next: byte, k: nat)
    requires k < |LedMap|
    requires BitAnd(prev, 0x77) == BitAnd(next, 0x77)
    ensures !Flipped(LedMap[k], prev, next)
  {
    var bit := LedMap[k].bit;
    assert bit in {0x01, 0x02, 0x04, 0x10, 0x20, 0x40};
    assert BitAnd(bit, 0x77) == bit by {
      if bit == 0x01 { assert BitAnd(0x01, 0x77) == 0x01; }
      else if bit == 0x02 { assert BitAnd(0x02, 0x77) == 0x02; }
      else if bit == 0x04 { assert BitAnd(0x04, 0x77) == 0x04; }
      else if bit == 0x10 { assert BitAnd(0x10, 0x77) == 0x10; }
      else if bit == 0x20 { assert BitAnd(0x20, 0x77) == 0x20; }
      else { assert BitAnd(0x40, 0x77) == 0x40; }
    }
    SubMaskAgrees(prev, next, bit);
  }

  /** Flipping only bit 0x08 still raises an LED event, with an empty delta. */
  lemma UnnamedBitStillRaisesLedEvent()
    ensures RaisedEvents(StatusUpdate(Status(Some(0x40), 0x01, Some(0x59)), [0xE0, 0x40, 0x09, 0x59, 0x00, 0xFF]))
         == [LedsChanged([])]
  {
    assert BitAnd(0x01, 0x77) == BitAnd(0x09, 0x77);
    UnnamedBitsGiveEmptyDelta(0x01, 0x09);
  }

  /** `E0 41 11 59 .. FF` on a fresh engine: mode "armed", LEDs power and lock on (0x11 is
      0x01 | 0x10), display blank. */
  lemma ArmedFrameExample(checksum: byte)
    ensures RaisedEvents(StatusUpdate(Initial, [0xE0, 0x41, 0x11, 0x59, checksum, 0xFF]))
         == [ModeChanged("armed"),
             LedsChanged([LedChange("power", true), LedChange("lock", true)]),
             DisplayChanged("  ")]
  {
    assert LedDelta(0x00, 0x11) == [LedChange("power", true), LedChange("lock", true)] by {
      assert BitAnd(0x11, 0x10) == 0x10;
      assert BitAnd(0x11, 0x20) == 0x00;
      assert BitAnd(0x11, 0x40) == 0x00;
      NoFlipNoDelta(0x00, 0x11, 4);
      assert LedDeltaFrom(0x00, 0x11, 3) == [LedChange("lock", true)];
      assert BitAnd(0x11, 0x02) == 0x00;
      assert BitAnd(0x11, 0x04) == 0x00;
      assert LedDeltaFrom(0x00, 0x11, 1) == [LedChange("lock", true)];
      assert BitAnd(0x11, 0x01) == 0x01;
    }
  }
}

=== FILE: tables.dfy ===
/**
 The static lookup tables of the Jablotron 6x protocol: keypad characters to
 key codes and back, display codes to the two-character keypad text, LED bits
 to indicator names, and mode bytes to mode names; plus the labels the status
 decoder derives from them, with their fallbacks for unknown bytes.
 */
module Tables {
  import opened Common

  /** Keypad character to the code sent on (and echoed by) the serial line. */
  const KeyMap: map<char, byte> := map[
    '0' := 0x80, '1' := 0x81, '2' := 0x82, '3' := 0x83, '4' := 0x84,
    '5' := 0x85, '6' := 0x86, '7' := 0x87, '8' := 0x88, '9' := 0x89,
    'N' := 0x8E, 'F' := 0x8F]

  /** Key code back to keypad character. */
  const KeyMapInversed: map<byte, char> := map[
    0x80 := '0', 0x81 := '1', 0x82 := '2', 0x83 := '3', 0x84 := '4',
    0x85 := '5', 0x86 := '6', 0x87 := '7', 0x88 := '8', 0x89 := '9',
    0x8E := 'N', 0x8F := 'F']

  /** The key codes in ascending order; the engine registers one key handler per entry. */
  const KeyCodes: seq<byte> := [0x80, 0x81, 0x82, 0x83, 0x84, 0x85, 0x86, 0x87, 0x88, 0x89, 0x8E, 0x8F]

  /** `KeyMapInversed` is exactly the inverse of `KeyMap`, and `KeyMap` is injective. */
  lemma KeyMapsAreInverse()
    ensures forall k :: k in KeyMap ==> KeyMap[k] in KeyMapInversed && KeyMapInversed[KeyMap[k]] == k
    ensures forall v :: v in KeyMapInversed ==> KeyMapInversed[v] in KeyMap && KeyMap[KeyMapInversed[v]] == v
    ensures forall k, k' :: k in KeyMap && k' in KeyMap && KeyMap[k] == KeyMap[k'] ==> k == k'
  {
  }

  /** `KeyCodes` lists each key code once and nothing else. */
  lemma KeyCodesAreTheKeyMapValues()
    ensures forall v :: v in KeyCodes <==> v in KeyMapInversed
    ensures forall i, j :: 0 <= i < j < |KeyCodes| ==> KeyCodes[i] < KeyCodes[j]
  {
  }

  /** Display code to the text shown on the keypad's two-character display. */
  const DisplayMap: map<byte, string> := map[
    0x01 := " 1", 0x02 := " 2", 0x03 := " 3", 0x04 := " 4", 0x05 := " 5",
    0x06 := " 6", 0x07 := " 7", 0x08 := " 8", 0x09 := " 9", 0x0A := "10",
    0x0B := "11", 0x0C := "12", 0x0D := "13", 0x0E := "14", 0x0F := "15",
    0x10 := "16",
    0x11 := " A", 0x13 := " C", 0x14 := " d",
    0x17 := " U", 0x1A := " P",
    0x1C := " L", 0x1D := " J",
    0x21 := "c1", 0x22 := "c2", 0x23 := "c3", 0x24 := "c4", 0x25 := "c5",
    0x26 := "c6", 0x27 := "c7", 0x28 := "c8",
    0x59 := "  ", 0x5B := " -",
    0x5E := "| ", 0x5F := " |"]

  /** One named LED: its bit in the status frame's LED byte. */
  datatype Led = Led(bit: byte, name: string)

  /** The named LEDs in ascending bit order; bits 0x08 and 0x80 carry no name. */
  const LedMap: seq<Led> := [
    Led(0x01, "power"), Led(0x02, "alarm"), Led(0x04, "tamper"),
    Led(0x10, "lock"), Led(0x20, "blinking_lock"), Led(0x40, "wireless")]

  /** Mode byte to mode name. */
  const ModeMap: map<byte, string> := map[
    0x00 := "service mode", 0x20 := "user mode", 0x40 := "disarmed",
    0x41 := "armed", 0x44 := "tamper alarm", 0x51 := "arming",
    0x61 := "armedA", 0x63 := "armedB", 0x71 := "armingA", 0x73 := "armingB"]

  /** Python's `a & b` on two bytes. */
  function BitAnd(a: byte, b: byte): byte {
    ((a as bv8) & (b as bv8)) as int
  }

  /** The text reported for a mode byte: its name, or `"Mode %02x"` when the table has none. */
  function ModeLabel(b: byte): (text: string)
    ensures b in ModeMap ==> text == ModeMap[b]
    ensures b !in ModeMap ==> |text| == 7 && text[..5] == "Mode " && ParseHex2(text[5..]) == Some(b)
  {
    if b in ModeMap then ModeMap[b] else Hex2RoundTrip(b); "Mode " + Hex2(b)
  }

  /** The text reported for a display byte: its table text, or `"%02x"` when the table has none.
      Either way the label is two characters, the width of the keypad display. */
  function DisplayLabel(b: byte): (text: string)
    ensures |text| == 2
    ensures b in DisplayMap ==> text == DisplayMap[b]
    ensures b !in DisplayMap ==> ParseHex2(text) == Some(b)
  {
    if b in DisplayMap then DisplayMap[b] else Hex2RoundTrip(b); Hex2(b)
  }

  /** No mode name starts with `M`, the first letter of every fallback label. */
  lemma ModeNamesAreNotFallbacks(b: byte)
    requires b in ModeMap
    ensures |ModeMap[b]| > 0 && ModeMap[b][0] != 'M'
  {
  }

  /** Different mode bytes in the table have different names. */
  lemma ModeNamesDistinct(a: byte, b: byte)
    requires a in ModeMap && b in ModeMap && a != b
    ensures ModeMap[a] != ModeMap[b]
  {
  }

  /** A mode label identifies the mode byte: table names are distinct and never of the
      fallback form, and fallback labels differ whenever their bytes do. */
  lemma ModeLabelInjective(a: byte, b: byte)
    requires ModeLabel(a) == ModeLabel(b)
    ensures a == b
  {
    if a in ModeMap && b in ModeMap {
      if a != b {
        ModeNamesDistinct(a, b);
      }
    } else if a !in ModeMap && b !in ModeMap {
      assert ParseHex2(ModeLabel(a)[5..]) == Some(a);
    } else if a in ModeMap {
      ModeNamesAreNotFallbacks(a);
    } else {
      ModeNamesAreNotFallbacks(b);
    }
  }

  /** Display labels do not identify the display byte: code 0x0C shows "12", and so does
      the fallback for the unlisted code 0x12. */
  lemma DisplayLabelAmbiguous()
    ensures DisplayLabel(0x0C) == DisplayLabel(0x12)
  {
    assert 0x12 !in DisplayMap;
    assert Hex2(0x12) == "12";
  }
}
